=== FILE: README.md ===
# vibecart marketplace API: a Dafny model

vibecart is a Next.js marketplace. Buyers put products in a cart and pay
from an in-app wallet. Checking out creates one order per seller. Sellers
manage their own catalogue, and users keep shipping addresses. This
project models the server side of that: the API route handlers that
change the store. Each handler is a validate-then-update step over an
in-memory copy of the database tables.

- `Store` (store.dfy) holds the rows of the User, Product, CartItem,
  Address, Order/OrderItem and WalletTransaction tables.
  - They live in a class `Db` that every writing handler modifies.
  - `Db.Snapshot()` gives the same tables as one `Tables` value.
  - The invariant `Db.Valid()` is `Consistent(Snapshot())`:
    - user ids match their keys, and balances are non-negative;
    - emails are unique;
    - every balance equals the sum of its owner's ledger rows;
    - product ids are distinct;
    - there is one cart row per (user, product), and quantities are positive;
    - every id is below the id counter.
- The handlers that write are methods on `Db`: `Orders.PlaceOrder`,
  `Cart.AddToCart`, `Wallet.TopUpWallet`, `SellerProducts.CreateProduct`,
  `SellerProducts.DeleteProduct`, `Register.RegisterUser` and
  `Addresses.CreateAddress`. Each takes the parsed request body
  (`SellerProducts.DeleteProduct`: the `[id]` path segment) and, except
  `Register.RegisterUser` (registration needs no login), the session
  (`Option<Session>`, None when there is none). Each returns the HTTP
  status and the response body.
- The handlers that only read are functions on a `Tables` snapshot and the
  session: `Cart.ListCart`, `SellerProducts.ListSellerProducts` and
  `Addresses.ListAddresses`. Each returns a `Listing`, the status and the rows.
- Each successful update is stated as a pure function on `Tables`, such as
  `Orders.AfterCheckout` or `Cart.AfterAdd`. The method promises that the
  new snapshot is that function of the old one. Lemmas then state what the
  function does (what changes and what does not) and that it keeps
  `Consistent`.
- Every rejection is `unchanged(db)`.
- `Checkout` (checkout.dfy) is the arithmetic of order placement: totals,
  the per-seller split of the cart (the `itemsBySeller` map), order
  construction and stock decrements.
- `Ordering` (ordering.dfy) holds the `where` filter and the `orderBy`
  sort used by the listing endpoints.

Money is an integer number of minor currency units. Row ids come from a
counter in the store, which also stands for the `createdAt` clock.

## Model

| member | source | states |
|---|---|---|
| Orders.PlaceOrder | app/api/orders/route.ts:10-120 | The status is determined by the request:<br>• 401 without a session;<br>• 400 without an address;<br>• 500 when a cart row's product is missing;<br>• 400 for an empty cart, for a line its stock cannot cover, or when the buyer is missing or the balance is below the total (a balance equal to the total passes);<br>• otherwise 201.<br>Every rejection leaves the store unchanged. On 201 the orders are one per seller group and the store becomes `AfterCheckout` of the old one. The store invariant is kept. |
| Orders.TallyCart | app/api/orders/route.ts:37-51 | The validation loop succeeds iff every line's stock covers its quantity. On success the accumulated total is `Total(lines)` and the map built is `GroupBySeller(lines)`. |
| Orders.SellerTotal | app/api/orders/route.ts:79-80 | The `forEach` accumulation equals the sum of price × quantity over the group. |
| Orders.TakeStock | app/api/orders/route.ts:100-105 | The inner stock loop equals decrementing each line's product by its quantity, in order. |
| Orders.CreateOrders | app/api/orders/route.ts:76-106 | The per-seller loop creates `NewOrders` (one order per group, consecutive ids, captured prices, group subtotal). It leaves the product table decremented by all groups' lines. |
| Orders.Commit | app/api/orders/route.ts:60-112 | The transaction applies the debit, the ledger row, the orders, the stock decrements and the cart clearing together, as one update of the store. |
| Orders.CheckoutKeepsConsistent | app/api/orders/route.ts:60-112 | A checkout the wallet covers keeps the whole store invariant, including balance = ledger sum. |
| Orders.CheckoutDebits | app/api/orders/route.ts:62-74 | The buyer's balance drops by exactly the total and no other user changes. Exactly one PURCHASE row of −total is appended. Balances still equal their ledger sums. |
| Orders.CheckoutOrders | app/api/orders/route.ts:78-97 | There is one order per distinct seller, and sellers do not repeat. A seller gets an order iff it sells a line. Each order holds exactly that seller's lines as items (product, quantity, captured price), with its total as `totalAmount`. Order totals add up to the amount debited. |
| Orders.CheckoutTakesStock | app/api/orders/route.ts:99-105 | Given the stock pre-check, each product in the cart loses exactly its line's quantity and stays ≥ 0. Products not in the cart are unchanged, and only the stock column changes. |
| Orders.CartLinesDistinct | app/api/orders/route.ts:27-30 | The buyer's joined cart names each product once, each with its own product row. |
| Orders.CheckoutEmptiesCart | app/api/orders/route.ts:109 | After checkout the buyer's cart is empty. Every other user's row is kept, and nothing else is added. Every other user's cart is the same sequence as before. The address table is untouched. |
| Checkout.GroupBySellerSplits | app/api/orders/route.ts:38-51 | The `itemsBySeller` map has one group per distinct seller. A seller has a group iff it sells a line. Each group is exactly that seller's lines, in cart order. |
| Checkout.GroupStepFound | app/api/orders/route.ts:47-50 | Pushing a line onto its seller's existing group keeps the split. |
| Checkout.GroupStepNew | app/api/orders/route.ts:47-50 | Opening a group for a new seller keeps the split. |
| Checkout.FindGroup | app/api/orders/route.ts:47 | `has(seller)` finds a group iff one has that seller, and the found group is that seller's. |
| Checkout.GroupsSumOfSplit | app/api/orders/route.ts:38-51 | Splitting by seller neither adds nor loses anything summed over lines (money, or a product's quantity). |
| Checkout.OrdersAddUpToTotal | app/api/orders/route.ts:78-87 | The orders built from the groups have totals adding up to the cart total (money conservation). |
| Checkout.OrdersTotalOfGroups | app/api/orders/route.ts:79-87 | Order totals add up to the sum of the group subtotals. |
| Checkout.NewOrders | app/api/orders/route.ts:76-97 | There is one order per group. Their ids are fresh counter values from the first id on, strictly increasing in group order. When the groups have distinct sellers, no two orders share a seller. |
| Checkout.SumAppend | app/api/orders/route.ts:44 | A running sum over two pieces is the sum of the pieces. |
| Checkout.SumFlatten | app/api/orders/route.ts:78-80 | Summing the groups' lines one after another equals adding the group sums. |
| Checkout.LinesOfMembers | app/api/orders/route.ts:46-50 | A seller's lines are exactly the cart lines with that seller. |
| Checkout.DecrementAllAt | app/api/orders/route.ts:100-105 | After the decrements, each product row differs only in stock, reduced by the summed quantity of its lines. |
| Checkout.DecrementAllConcat | app/api/orders/route.ts:99-105 | Decrementing group after group equals decrementing for all their lines. |
| Checkout.DecrementAllKeepsIds | app/api/orders/route.ts:101-104 | Stock updates keep every product row's position and id. |
| Checkout.QuantityOfDistinct | app/api/orders/route.ts:100-105 | When no product repeats among the lines, a product loses its own line's quantity, or nothing. |
| Checkout.StockAfterCheckout | app/api/orders/route.ts:99-105 | With one line per product and the stock pre-check passed, the decremented table is the old one with exactly each line's quantity taken out, and no stock below zero. |
| Cart.AddToCart | app/api/cart/route.ts:39-97 | The status is determined by the request:<br>• 401 without a session;<br>• 400 without a product id or a positive quantity;<br>• 404 for an unknown product;<br>• 400 when stock is below the quantity, or below the merged quantity of an existing line;<br>• otherwise 200 with the merged or new row.<br>Rejections leave the store unchanged. On success the row's quantity is ≤ the product's stock, and the invariant is kept. |
| Cart.AddMergesOrAppends | app/api/cart/route.ts:65-90 | After an add, the caller has exactly one line for the product, holding old + new quantity (or the new quantity if there was none). That line is the answered row. A new row is appended only when there was no line. Every other line is unchanged, so every other user's cart is unchanged. |
| Cart.AddKeepsCartOk | app/api/cart/route.ts:65-90 | After an add there is still at most one line per (user, product). Quantities stay positive and row ids distinct. |
| Cart.AddKeepsConsistent | app/api/cart/route.ts:72-90 | An add keeps the store invariant. |
| Cart.FindLine | app/api/cart/route.ts:65-70 | `findFirst` finds a row iff the caller has one for the product, and the found row is one. |
| Cart.ListCart | app/api/cart/route.ts:11-36 | GET gives 401 without a session and 500 when a row's product is missing. Otherwise it gives 200 with the caller's joined rows, as a permutation, sorted by product name ascending. |
| Cart.ListCartIsCallersCart | app/api/cart/route.ts:18-30 | Every listed line is one of the caller's cart rows with its own product, and every row of the caller is listed. |
| Cart.ByProductNameIsTotalPreorder | app/api/cart/route.ts:25-29 | Ordering by product name is total and transitive. |
| Wallet.TopUpWallet | app/api/wallet/topup/route.ts:10-55 | The status is determined by the request:<br>• 401 without a session;<br>• 400 for NaN or an amount ≤ 0;<br>• 400 above 10,000,000 (exactly 10,000,000 passes);<br>• 500 when the caller's user row is missing;<br>• otherwise 200.<br>Rejections change nothing. On 200 the store is `AfterTopUp` of the old one, and `newBalance` is the old balance + amount. The invariant is kept. |
| Wallet.TopUpCredits | app/api/wallet/topup/route.ts:31-47 | A top-up moves exactly one balance, by exactly the amount, and appends exactly one TOPUP row of that amount. Other users and other tables are untouched, and balance = ledger sum is kept. |
| Wallet.TopUpKeepsConsistent | app/api/wallet/topup/route.ts:31-47 | A positive top-up keeps the store invariant. |
| SellerProducts.ListSellerProducts | app/api/seller/products/route.ts:11-27 | GET gives 401 unless the caller is a seller. Otherwise it gives 200 with exactly the caller's products, as a permutation, newest first. |
| SellerProducts.ProductsOf | app/api/seller/products/route.ts:18-21 | The filter keeps exactly the products whose seller is the caller. |
| SellerProducts.CreateProduct | app/api/seller/products/route.ts:31-62 | POST gives 401 unless the caller is a seller, and 400 unless name, description, price, stock and category are truthy (for numeric JSON fields, so price 0 and stock 0 are rejected). Otherwise it gives 201 with the inserted row, owned by the caller. Rejections change nothing. |
| SellerProducts.CreateProductAddsOne | app/api/seller/products/route.ts:45-55 | The product table gains exactly one row, carrying the form's fields, with the caller as seller, found under its fresh id. Nothing else changes. |
| SellerProducts.CreateProductKeepsConsistent | app/api/seller/products/route.ts:45-55 | An insert keeps the store invariant. |
| SellerProducts.DeleteProduct | app/api/seller/products/route.ts:65-88 | DELETE gives 401 with no change unless the caller is a seller. Otherwise it removes the caller's product with that id, if any, and answers 204 either way. |
| SellerProducts.DeleteIsOwnerScoped | app/api/seller/products/route.ts:76-83 | After a delete:<br>• only the product table changes;<br>• no product matching both the id and the caller survives;<br>• every other product survives, and nothing new appears;<br>• another seller's product or a missing id leaves the tables identical. |
| SellerProducts.WithoutOwned | app/api/seller/products/route.ts:76-81 | `deleteMany` keeps exactly the rows not matching both the id and the seller. |
| SellerProducts.FilterKeepsDistinctIds | app/api/seller/products/route.ts:76-81 | Removing rows keeps product ids distinct. |
| SellerProducts.DeleteKeepsConsistent | app/api/seller/products/route.ts:76-81 | A delete keeps the store invariant. |
| Register.RegisterUser | app/api/auth/register/route.ts:10-52 | Registration gives 400 when a field is empty, and 409 when the email is taken. Otherwise it gives 201 with only id, name, email and role. Rejections change nothing, and the invariant is kept. |
| Register.RegisterAddsOne | app/api/auth/register/route.ts:20-38 | A registration adds exactly one user under a fresh id and keeps every existing user. Emails stay unique. The row stores the password's hash, the default role and an empty wallet. |
| Register.RegisterKeepsConsistent | app/api/auth/register/route.ts:32-38 | An insert with a fresh email keeps the store invariant, including balance = ledger sum for the new user. |
| Addresses.ListAddresses | app/api/addresses/route.ts:11-27 | GET gives 401 without a session. Otherwise it gives 200 with exactly the caller's addresses, as a permutation, newest first. |
| Addresses.AddressesOf | app/api/addresses/route.ts:18-21 | The filter keeps exactly the caller's addresses. |
| Addresses.CreateAddress | app/api/addresses/route.ts:30-59 | POST gives 401 without a session and 400 when a field is empty. Otherwise it gives 201 with the inserted row. Rejections change nothing. |
| Addresses.CreateAddressAddsOne | app/api/addresses/route.ts:44-52 | The address table gains exactly one row with the four fields, owned by the caller, under a fresh id. The caller's listing gains exactly that row, and other users' addresses are unchanged. |
| Addresses.CreateAddressKeepsConsistent | app/api/addresses/route.ts:44-52 | An insert keeps the store invariant. |
| Store.FindProduct | app/api/cart/route.ts:55-57 | `findUnique` by id finds a row with that id, or none exists. |
| Store.FindProductAt | app/api/seller/products/route.ts:45-55 | With distinct ids, looking up a row's id finds that row. |
| Store.Join | app/api/orders/route.ts:27-30 | `include: { product: true }` pairs each row with its product, and fails iff some row's product is missing. |
| Store.UserCartMembers | app/api/orders/route.ts:27-28 | `where: { userId }` keeps exactly the caller's cart rows. |
| Store.UserCartOfNoRows | app/api/orders/route.ts:109 | A cart with no row of the user gives that user an empty cart. |
| Store.OtherCartsMembers | app/api/orders/route.ts:109 | `deleteMany({ where: { userId } })` keeps exactly the other users' rows. |
| Store.OtherCartsKeepsUserCart | app/api/orders/route.ts:109 | Deleting one user's rows leaves every other user's cart equal to what it was, in the same order. |
| Store.OtherCartsOk | app/api/orders/route.ts:109 | Clearing one user's rows keeps the cart invariant. |
| Store.CartOkSnoc | app/api/cart/route.ts:83-89 | A row that clashes with no existing row can be appended without breaking the cart invariant. |
| Store.UserCartUpdate | app/api/cart/route.ts:78-81 | Updating a row of another user leaves a user's cart as it was. |
| Store.UserCartAppend | app/api/cart/route.ts:83-89 | Appending another user's row leaves a user's cart as it was. |
| Store.UserCartDistinctProducts | app/api/cart/route.ts:65-90 | One line per (user, product) means no product repeats in a user's cart. |
| Store.CreditMoves | app/api/wallet/topup/route.ts:39-46 | A balance update moves exactly one user's balance, by exactly the delta. |
| Store.LedgerSumAppend | app/api/wallet/topup/route.ts:32-38 | A new ledger row changes only its owner's sum, by its amount. |
| Store.LedgerSumAbsent | app/api/auth/register/route.ts:32-38 | A user with no ledger rows has sum zero, matching the new wallet. |
| Store.PairedUpdateKeepsLedger | app/api/wallet/topup/route.ts:31-47 | A balance move paired with a ledger row of the same amount keeps every balance equal to its ledger sum. |
| Store.CreditKeepsUsersOk | app/api/wallet/topup/route.ts:31-47 | A paired update that keeps the balance ≥ 0 keeps the users invariant. |
| Ordering.Filter | app/api/seller/products/route.ts:18-21 | A `where` clause keeps exactly the accepted rows, and no more rows than there were. |
| Ordering.FilterKeepsAll | app/api/seller/products/route.ts:76-81 | A filter that accepts every row returns the table unchanged. |
| Ordering.FilterAppend | app/api/addresses/route.ts:44-52 | Filtering a table with one row appended is the old result, plus that row when it is accepted. |
| Ordering.Insert | app/api/seller/products/route.ts:18-21 | Inserting into a sorted sequence keeps it sorted and adds exactly that element. |
| Ordering.InsertKeepsHeadFirst | app/api/seller/products/route.ts:18-21 | The head of a sorted sequence precedes everything an element is inserted among. |
| Ordering.SortBy | app/api/seller/products/route.ts:18-21 | `orderBy` returns a sorted permutation of its input. |
| Ordering.NewestFirstIsTotalPreorder | app/api/addresses/route.ts:20 | Newest first by creation stamp (`createdAt: 'desc'`, used by the address and seller product listings) is total and transitive. |
| Ordering.LexLeTotal | app/api/cart/route.ts:25-29 | Any two names compare in ascending name order. |
| Ordering.LexLeTransitive | app/api/cart/route.ts:25-29 | Ascending name order is transitive. |

## Left out

- Session resolution (NextAuth) is outside the model. The caller is an input: its user id and role, or None.
- bcrypt is outside the model. The hash is an opaque function parameter.
- Prisma is modelled as in-memory tables. A `$transaction` is one atomic update.
- Only two database failures are modelled; every other failure that would surface as 500 is not. The two are:
  - a cart row whose product is missing (orders POST, cart GET);
  - a top-up for a user row that is missing.
- Prices, stock, quantities and amounts are integers.
  - Money is in minor units. Floating point, `Decimal` and `Number(...)` rounding are not modelled.
  - A fractional quantity or amount is not modelled.
  - An unparsable top-up amount is the `None` case (NaN).
- The product form's `price` and `stock` arrive as numbers. A string such as "0" (truthy in JavaScript, then `Number`-ed to 0) is not modelled.
- Strings stand for request fields. An absent field is the empty string, which is exactly what the truthiness checks reject.
- The checkout stock race is not modelled. Stock is checked before the transaction and not re-checked inside it, so concurrent checkouts can overlap; the model is sequential.
- The checkout does not check that the address belongs to the buyer, or that it exists. The model keeps this: the address id is only stored on the orders.
- Foreign keys and column defaults come from the Prisma schema, which is not part of this model.
  - Inserts do not check that the referenced user, product or address exists, beyond the checks the handlers make. In particular a checkout whose `addressId` names no address answers 201 in the model. If `Order.addressId` is a relation, the order insert fails inside the transaction and the handler answers 500.
  - Deletes have no referential action. Deleting a product that cart rows or order items still reference answers 204 in the model and leaves those rows dangling. Under Prisma's default `Restrict` the database would refuse it and the handler would answer 500. Those dangling cart rows are what make the 500 answers of `Orders.PlaceOrder` and `Cart.ListCart` reachable in the model.
  - A new user's role is taken to be Buyer (`Register.DefaultRole`) and the wallet starts at 0. A new order's status is taken to be Pending (`Checkout.OrderFor`), since the order insert sets no status.
- Ids and `createdAt` come from one counter in the store. Newest first means a larger counter value.
- SellerProducts.DeleteProduct models the DELETE that the seller product page calls, app/api/seller/products/[id]/route.ts lines 27-50, with the `[id]` segment as its input. Its body is the same as the DELETE in app/api/seller/products/route.ts lines 65-88, and the rows of the "## Model" table for the delete cite those lines. That second route has no `[id]` segment, so `params.id` is not supplied there. As written, it either fails on `params.id` (500, nothing deleted) or passes `id: undefined`, which Prisma drops from the filter, so it would delete every product the caller owns. The model follows the `[id]` route, where the id is always present.
- `findMany` without `orderBy` (the buyer's cart at checkout) promises no row order. The model reads rows in table order. That order fixes the order of the seller groups, and so which order receives which id.
- A request body that is not valid JSON makes `request.json()` throw, and every POST handler answers 500. The handlers here take the already parsed body.
- Name ordering compares code points. Database collation rules are not modelled.
- Ties in `orderBy` come out in one particular order. The contracts state only sortedness and the permutation, as the database promises no more.
- Cart GET: `Cart.ListCart` returns the joined lines, not Prisma's JSON shape.
- Orders.PlaceOrder answers 201 with the created `Order` values, each carrying its `items`. The handler answers with what `tx.order.create` returns, which has no `include`, so its JSON holds only the order's own columns and no items.
- Read-only routes, the pages and components, `formatPrice` and the seed script are not part of this model: product search, dashboard, seller orders, admin, profile.

=== FILE: addresses.dfy ===
/**
 * /api/addresses: the caller's shipping addresses. GET lists them, newest
 * first; POST adds one owned by the caller.
 */
module Addresses {
  import opened Store
  import opened Ordering

  // ---------------------------------------------------------------------------
  // GET

  /** The creation stamp the listing orders by, newest first. */
  function CreatedAt(a: Address): nat
  {
    a.createdAt
  }

  /** `where: { userId }`: the user's addresses, in table order. */
  function AddressesOf(addresses: seq<Address>, uid: Id): (r: seq<Address>)
    ensures forall a :: a in r <==> a in addresses && a.userId == uid
  {
    Filter(addresses, (a: Address) => a.userId == uid)
  }

  /**
   * The GET handler: 401 without a session; otherwise 200 with exactly the
   * caller's addresses, newest first.
   */
  function ListAddresses(t: Tables, caller: Option<Session>): (r: Listing<Address>)
    ensures caller.None? ==> r == Listing(401, [])
    ensures caller.Some? ==>
      && r.status == 200
      && Sorted(r.rows, NewestFirst(CreatedAt))
      && multiset(r.rows) == multiset(AddressesOf(t.addresses, caller.value.userId))
      && (forall a :: a in r.rows <==> a in t.addresses && a.userId == caller.value.userId)
  {
    if caller.None? then Listing(401, [])
    else
      NewestFirstIsTotalPreorder(CreatedAt);
      var rows := SortBy(AddressesOf(t.addresses, caller.value.userId), NewestFirst(CreatedAt));
      assert forall a :: a in rows <==> a in multiset(rows);
      Listing(200, rows)
  }

  // ---------------------------------------------------------------------------
  // POST

  /** The request body; an absent field is "". */
  datatype AddressForm = AddressForm(street: string, city: string, province: string, postalCode: string)

  /** All four fields are non-empty. */
  predicate CompleteAddress(f: AddressForm)
  {
    f.street != "" && f.city != "" && f.province != "" && f.postalCode != ""
  }

  /** The row the POST creates: the four fields, owned by `uid`, with the next id. */
  function NewAddressRow(f: AddressForm, uid: Id, id: Id): Address
  {
    Address(id, uid, f.street, f.city, f.province, f.postalCode, id)
  }

  function AfterCreateAddress(t: Tables, uid: Id, f: AddressForm): Tables
  {
    t.(addresses := t.addresses + [NewAddressRow(f, uid, t.nextId)], nextId := t.nextId + 1)
  }

  lemma CreateAddressKeepsConsistent(t: Tables, uid: Id, f: AddressForm)
    requires Consistent(t)
    ensures Consistent(AfterCreateAddress(t, uid, f))
  {
    var n := t.nextId;
    UsersOkGrows(t.users, t.ledger, n, n + 1);
    ProductsOkGrows(t.products, n, n + 1);
    CartOkGrows(t.cart, n, n + 1);
    OrdersOkGrows(t.orders, n, n + 1);
  }

  /**
   * Creating an address adds exactly one row, owned by the caller and
   * carrying the four fields, with a fresh id; the caller's listing gains
   * exactly that row and every other user's addresses stay as they were.
   */
  lemma CreateAddressAddsOne(t: Tables, uid: Id, f: AddressForm)
    requires Consistent(t)
    ensures var t', a := AfterCreateAddress(t, uid, f), NewAddressRow(f, uid, t.nextId);
      && t'.addresses == t.addresses + [a]
      && a.userId == uid
      && a.street == f.street && a.city == f.city && a.province == f.province && a.postalCode == f.postalCode
      && (forall k :: 0 <= k < |t.addresses| ==> t.addresses[k].id != a.id)
      && AddressesOf(t'.addresses, uid) == AddressesOf(t.addresses, uid) + [a]
      && (forall u :: u != uid ==> AddressesOf(t'.addresses, u) == AddressesOf(t.addresses, u))
      && t' == t.(addresses := t'.addresses, nextId := t.nextId + 1)
  {
    var a := NewAddressRow(f, uid, t.nextId);
    FilterAppend(t.addresses, a, (x: Address) => x.userId == uid);
    forall u | u != uid
      ensures AddressesOf(t.addresses + [a], u) == AddressesOf(t.addresses, u)
    {
      FilterAppend(t.addresses, a, (x: Address) => x.userId == u);
    }
  }

  /**
   * The POST handler: 401 without a session; 400 when a field is empty;
   * otherwise 201 with the created row.
   */
  method CreateAddress(db: Db, caller: Option<Session>, f: AddressForm)
    returns (status: int, created: Option<Address>)
    requires db.Valid()
    modifies db
    ensures db.Valid()
    ensures caller.None? ==> status == 401
    ensures caller.Some? && !CompleteAddress(f) ==> status == 400
    ensures caller.Some? && CompleteAddress(f) ==> status == 201
    ensures status != 201 ==> created.None? && unchanged(db)
    ensures status == 201 ==>
      && caller.Some?
      && created == Some(NewAddressRow(f, caller.value.userId, old(db.nextId)))
      && db.Snapshot() == AfterCreateAddress(old(db.Snapshot()), caller.value.userId, f)
  {
    if caller.None? {
      return 401, None;
    }
    if !CompleteAddress(f) {
      return 400, None;
    }
    var uid := caller.value.userId;
    CreateAddressKeepsConsistent(db.Snapshot(), uid, f);
    var a := NewAddressRow(f, uid, db.nextId);
    db.addresses := db.addresses + [a];
    db.nextId := db.nextId + 1;
    return 201, Some(a);
  }
}

=== FILE: cart.dfy ===
/**
 * /api/cart: GET lists the caller's cart lines with their products, by
 * product name; POST adds a quantity of one product to the caller's cart,
 * merging into the existing line for that product when there is one.
 */
module Cart {
  import opened Store
  import opened Ordering

  // ---------------------------------------------------------------------------
  // GET

  /** `orderBy: { product: { name: 'asc' } }`. */
  predicate ByProductName(x: Line, y: Line)
  {
    LexLe(x.product.name, y.product.name)
  }

  lemma ByProductNameIsTotalPreorder()
    ensures IsTotalPreorder(ByProductName)
  {
    forall a: Line, b: Line
      ensures ByProductName(a, b) || ByProductName(b, a)
    {
      LexLeTotal(a.product.name, b.product.name);
    }
    forall a: Line, b: Line, c: Line | ByProductName(a, b) && ByProductName(b, c)
      ensures ByProductName(a, c)
    {
      LexLeTransitive(a.product.name, b.product.name, c.product.name);
    }
  }

  /**
   * The GET handler: 401 without a session; 500 when one of the caller's
   * rows points at a missing product; otherwise 200 with every row of the
   * caller, and only those, joined with its product and sorted by name.
   */
  function ListCart(t: Tables, caller: Option<Session>): (r: Listing<Line>)
    ensures caller.None? ==> r == Listing(401, [])
    ensures caller.Some? && Join(UserCart(t.cart, caller.value.userId), t.products).None? ==> r == Listing(500, [])
    ensures caller.Some? && Join(UserCart(t.cart, caller.value.userId), t.products).Some? ==>
      && r.status == 200
      && Sorted(r.rows, ByProductName)
      && multiset(r.rows) == multiset(Join(UserCart(t.cart, caller.value.userId), t.products).value)
  {
    if caller.None? then Listing(401, [])
    else
      match Join(UserCart(t.cart, caller.value.userId), t.products)
      case None => Listing(500, [])
      case Some(lines) =>
        ByProductNameIsTotalPreorder();
        Listing(200, SortBy(lines, ByProductName))
  }

  /**
   * The listing holds exactly the caller's rows: each returned line is one of
   * the caller's cart rows with its own product, and each cart row of the
   * caller is returned.
   */
  lemma ListCartIsCallersCart(t: Tables, caller: Session)
    requires Join(UserCart(t.cart, caller.userId), t.products).Some?
    ensures var uid, rows := caller.userId, ListCart(t, Some(caller)).rows;
      && (forall l :: l in rows ==> l.item in t.cart && l.item.userId == uid && Some(l.product) == FindProduct(t.products, l.item.productId))
      && (forall x :: x in t.cart && x.userId == uid ==> exists l :: l in rows && l.item == x)
  {
    var uid := caller.userId;
    var items := UserCart(t.cart, uid);
    var lines := Join(items, t.products).value;
    var rows := ListCart(t, Some(caller)).rows;
    UserCartMembers(t.cart, uid);
    forall l | l in rows
      ensures l.item in t.cart && l.item.userId == uid && Some(l.product) == FindProduct(t.products, l.item.productId)
    {
      assert l in multiset(lines);
      var k :| 0 <= k < |lines| && lines[k] == l;
      assert items[k] in items;
    }
    forall x | x in t.cart && x.userId == uid
      ensures exists l :: l in rows && l.item == x
    {
      var k :| 0 <= k < |items| && items[k] == x;
      assert lines[k] in multiset(rows);
    }
  }

  // ---------------------------------------------------------------------------
  // POST

  /** `findFirst({ where: { userId, productId } })`: the position of the caller's row for the product. */
  function FindLine(cart: seq<CartItem>, uid: Id, pid: Id): (r: Option<nat>)
    ensures r.Some? ==> r.value < |cart| && cart[r.value].userId == uid && cart[r.value].productId == pid
    ensures r.None? <==> forall k :: 0 <= k < |cart| ==> !(cart[k].userId == uid && cart[k].productId == pid)
  {
    if cart == [] then None
    else if cart[0].userId == uid && cart[0].productId == pid then Some(0)
    else match FindLine(cart[1..], uid, pid)
      case None => None
      case Some(k) => Some(k + 1)
  }

  /** The body passes the first check: a product id and a positive quantity. */
  predicate WellFormedAdd(productId: Option<Id>, quantity: Option<int>)
  {
    productId.Some? && quantity.Some? && quantity.value > 0
  }

  /** The quantity the caller's line for `pid` has once `q` more is added. */
  function MergedQuantity(cart: seq<CartItem>, uid: Id, pid: Id, q: int): int
  {
    match FindLine(cart, uid, pid)
    case Some(k) => cart[k].quantity + q
    case None => q
  }

  /** The row the POST answers with: the merged line, or the new one with the next id. */
  function AddedRow(t: Tables, uid: Id, pid: Id, q: int): CartItem
  {
    match FindLine(t.cart, uid, pid)
    case Some(k) => t.cart[k].(quantity := t.cart[k].quantity + q)
    case None => CartItem(t.nextId, uid, pid, q)
  }

  /** The tables after a successful add: the caller's line is updated in place, or a new line is appended. */
  function AfterAdd(t: Tables, uid: Id, pid: Id, q: int): Tables
  {
    match FindLine(t.cart, uid, pid)
    case Some(k) => t.(cart := t.cart[k := AddedRow(t, uid, pid, q)])
    case None => t.(cart := t.cart + [AddedRow(t, uid, pid, q)], nextId := t.nextId + 1)
  }

  /** Adding a positive quantity keeps the store invariant. */
  lemma AddKeepsConsistent(t: Tables, uid: Id, pid: Id, q: int)
    requires Consistent(t) && q >= 1
    ensures Consistent(AfterAdd(t, uid, pid, q))
  {
    var t' := AfterAdd(t, uid, pid, q);
    AddKeepsCartOk(t, uid, pid, q);
    if FindLine(t.cart, uid, pid).None? {
      UsersOkGrows(t.users, t.ledger, t.nextId, t'.nextId);
      ProductsOkGrows(t.products, t.nextId, t'.nextId);
      AddressesOkGrows(t.addresses, t.nextId, t'.nextId);
      OrdersOkGrows(t.orders, t.nextId, t'.nextId);
    }
  }

  /**
   * What a successful add does to the cart: the caller has exactly one line
   * for the product, holding the merged quantity; that line is the row the
   * handler answers with; every other line keeps its place and contents, so
   * other users' carts are untouched; and a new line is appended only when
   * the caller had none for the product.
   */
  lemma AddMergesOrAppends(t: Tables, uid: Id, pid: Id, q: int)
    requires CartOk(t.cart, t.nextId) && q >= 1
    ensures var t' := AfterAdd(t, uid, pid, q);
      && UniqueCartLines(t'.cart)
      && FindLine(t'.cart, uid, pid).Some?
      && t'.cart[FindLine(t'.cart, uid, pid).value] == AddedRow(t, uid, pid, q)
      && AddedRow(t, uid, pid, q).quantity == MergedQuantity(t.cart, uid, pid, q)
      && |t'.cart| == |t.cart| + (if FindLine(t.cart, uid, pid).Some? then 0 else 1)
      && (forall j :: 0 <= j < |t.cart| && !(t.cart[j].userId == uid && t.cart[j].productId == pid) ==>
            t'.cart[j] == t.cart[j])
      && (forall u :: u != uid ==> UserCart(t'.cart, u) == UserCart(t.cart, u))
  {
    var t' := AfterAdd(t, uid, pid, q);
    AddKeepsCartOk(t, uid, pid, q);
    match FindLine(t.cart, uid, pid)
    case Some(k) =>
      assert t'.cart[k].userId == uid && t'.cart[k].productId == pid;
      var k' := FindLine(t'.cart, uid, pid).value;
      assert SamePair(t'.cart[k], t'.cart[k']);
      forall u | u != uid
        ensures UserCart(t'.cart, u) == UserCart(t.cart, u)
      {
        UserCartUpdate(t.cart, k, AddedRow(t, uid, pid, q), u);
      }
    case None =>
      assert t'.cart[|t.cart|].userId == uid && t'.cart[|t.cart|].productId == pid;
      var k' := FindLine(t'.cart, uid, pid).value;
      assert SamePair(t'.cart[|t.cart|], t'.cart[k']);
      forall u | u != uid
        ensures UserCart(t'.cart, u) == UserCart(t.cart, u)
      {
        UserCartAppend(t.cart, AddedRow(t, uid, pid, q), u);
      }
  }

  lemma AddKeepsCartOk(t: Tables, uid: Id, pid: Id, q: int)
    requires CartOk(t.cart, t.nextId) && q >= 1
    ensures CartOk(AfterAdd(t, uid, pid, q).cart, AfterAdd(t, uid, pid, q).nextId)
  {
    var t' := AfterAdd(t, uid, pid, q);
    var x := AddedRow(t, uid, pid, q);
    match FindLine(t.cart, uid, pid)
    case Some(k) =>
      assert forall j :: 0 <= j < |t.cart| ==> SamePair(t'.cart[j], t.cart[j]) && t'.cart[j].id == t.cart[j].id;
    case None =>
      assert forall j :: 0 <= j < |t.cart| ==> !SamePair(t.cart[j], x) && t.cart[j].id != x.id;
  }

  /**
   * The POST handler. 401 without a session; 400 without a product id or a
   * positive quantity; 404 for an unknown product; 400 when the product's
   * stock is below the requested quantity, or below the merged quantity of
   * the caller's existing line; otherwise 200 with the added or updated row.
   * A rejection leaves the store as it was.
   */
  method AddToCart(db: Db, caller: Option<Session>, productId: Option<Id>, quantity: Option<int>)
    returns (status: int, row: Option<CartItem>)
    requires db.Valid()
    modifies db
    ensures db.Valid()
    ensures caller.None? ==> status == 401
    ensures caller.Some? && !WellFormedAdd(productId, quantity) ==> status == 400
    ensures caller.Some? && WellFormedAdd(productId, quantity) ==>
      var uid, pid, q := caller.value.userId, productId.value, quantity.value;
      match FindProduct(old(db.products), pid)
      case None => status == 404
      case Some(p) =>
        if p.stock < q then status == 400
        else if p.stock < MergedQuantity(old(db.cart), uid, pid, q) then status == 400
        else status == 200
    ensures status != 200 ==> row.None? && unchanged(db)
    ensures status == 200 ==> caller.Some? && WellFormedAdd(productId, quantity)
    ensures status == 200 ==>
      var uid, pid, q := caller.value.userId, productId.value, quantity.value;
      && row == Some(AddedRow(old(db.Snapshot()), uid, pid, q))
      && db.Snapshot() == AfterAdd(old(db.Snapshot()), uid, pid, q)
      && FindProduct(old(db.products), pid).Some?
      && row.value.quantity <= FindProduct(old(db.products), pid).value.stock
  {
    if caller.None? {
      return 401, None;
    }
    if productId.None? || quantity.None? || quantity.value <= 0 {
      return 400, None;
    }
    var uid, pid, q := caller.value.userId, productId.value, quantity.value;
    var product := FindProduct(db.products, pid);
    if product.None? {
      return 404, None;
    }
    if product.value.stock < q {
      return 400, None;
    }
    ghost var t := db.Snapshot();
    AddKeepsConsistent(t, uid, pid, q);
    var existing := FindLine(db.cart, uid, pid);
    if existing.Some? {
      var k := existing.value;
      var newQuantity := db.cart[k].quantity + q;
      if product.value.stock < newQuantity {
        return 400, None;
      }
      row := Some(db.cart[k].(quantity := newQuantity));
      db.cart := db.cart[k := row.value];
    } else {
      row := Some(CartItem(db.nextId, uid, pid, q));
      db.cart, db.nextId := db.cart + [row.value], db.nextId + 1;
    }
    assert db.Snapshot() == AfterAdd(t, uid, pid, q);
    status := 200;
  }
}

=== FILE: checkout.dfy ===
/**
 * The arithmetic and bookkeeping behind order placement: what a cart costs,
 * how its lines are split into one group per seller (the `itemsBySeller`
 * map), how the orders are built from the groups, and what the stock
 * decrements do to the product table. Sequences are folded from the right
 * so that each definition matches a loop that walks its input front to back.
 */
module Checkout {
  import opened Store

  function LineTotal(l: Line): int
  {
    l.product.price * l.item.quantity
  }

  function SellerOf(l: Line): Id
  {
    l.product.sellerId
  }

  /** `f` summed over the lines. */
  function Sum(ls: seq<Line>, f: Line -> int): int
  {
    if ls == [] then 0 else Sum(ls[..|ls| - 1], f) + f(ls[|ls| - 1])
  }

  /** Price times quantity, summed over the cart (`totalPrice`). */
  function Total(ls: seq<Line>): int
  {
    Sum(ls, LineTotal)
  }

  /** The quantity a line takes from product `pid`. */
  function QuantityOf(pid: Id): Line -> int
  {
    (l: Line) => if l.item.productId == pid then l.item.quantity else 0
  }

  lemma {:induction false} SumAppend(a: seq<Line>, b: seq<Line>, f: Line -> int)
    ensures Sum(a + b, f) == Sum(a, f) + Sum(b, f)
  {
    if b == [] {
      assert a + b == a;
    } else {
      var b', x := b[..|b| - 1], b[|b| - 1];
      assert (a + b)[..|a + b| - 1] == a + b';
      assert (a + b)[|a + b| - 1] == x;
      SumAppend(a, b', f);
    }
  }

  /** Every line of `seller`, in cart order. */
  function LinesOf(ls: seq<Line>, seller: Id): seq<Line>
  {
    if ls == [] then []
    else
      var last := ls[|ls| - 1];
      LinesOf(ls[..|ls| - 1], seller) + (if SellerOf(last) == seller then [last] else [])
  }

  /** `LinesOf` keeps exactly the lines of `seller`. */
  lemma {:induction false} LinesOfMembers(ls: seq<Line>, seller: Id)
    ensures forall l :: l in LinesOf(ls, seller) <==> l in ls && SellerOf(l) == seller
  {
    if ls != [] {
      LinesOfMembers(ls[..|ls| - 1], seller);
      assert ls == ls[..|ls| - 1] + [ls[|ls| - 1]];
    }
  }

  // ---------------------------------------------------------------------------
  // The per-seller split

  /** One entry of `itemsBySeller`: a seller and the lines pushed for it. */
  datatype Group = Group(sellerId: Id, lines: seq<Line>)

  /** `itemsBySeller.has(seller)` / `get(seller)`: the position of the seller's group. */
  function FindGroup(gs: seq<Group>, seller: Id): (r: Option<nat>)
    ensures r.Some? ==> r.value < |gs| && gs[r.value].sellerId == seller
    ensures r.None? <==> forall k :: 0 <= k < |gs| ==> gs[k].sellerId != seller
  {
    if gs == [] then None
    else if gs[0].sellerId == seller then Some(0)
    else match FindGroup(gs[1..], seller)
      case None => None
      case Some(k) => Some(k + 1)
  }

  /**
   * One step of the grouping loop: push the line onto its seller's group, or
   * `set` a new group at the end (a JavaScript Map iterates in insertion order).
   */
  function AddToGroups(gs: seq<Group>, l: Line): seq<Group>
  {
    match FindGroup(gs, SellerOf(l))
    case Some(k) => gs[k := gs[k].(lines := gs[k].lines + [l])]
    case None => gs + [Group(SellerOf(l), [l])]
  }

  /** `itemsBySeller` after the loop has visited every line. */
  function GroupBySeller(ls: seq<Line>): seq<Group>
  {
    if ls == [] then [] else AddToGroups(GroupBySeller(ls[..|ls| - 1]), ls[|ls| - 1])
  }

  predicate DistinctSellers(gs: seq<Group>)
  {
    forall i, j :: 0 <= i < j < |gs| ==> gs[i].sellerId != gs[j].sellerId
  }

  /**
   * The split is one group per distinct seller of the cart: sellers do not
   * repeat, a seller has a group exactly when it sells some line, and each
   * group holds precisely that seller's lines, in cart order.
   */
  lemma {:induction false} GroupBySellerSplits(ls: seq<Line>)
    ensures DistinctSellers(GroupBySeller(ls))
    ensures forall k :: 0 <= k < |GroupBySeller(ls)| ==>
      GroupBySeller(ls)[k].lines == LinesOf(ls, GroupBySeller(ls)[k].sellerId) != []
    ensures forall s :: FindGroup(GroupBySeller(ls), s).Some? <==> LinesOf(ls, s) != []
  {
    if ls != [] {
      var init, l := ls[..|ls| - 1], ls[|ls| - 1];
      GroupBySellerSplits(init);
      assert ls == init + [l];
      var gs0 := GroupBySeller(init);
      match FindGroup(gs0, SellerOf(l))
      case Some(k) => GroupStepFound(gs0, init, l, k);
      case None => GroupStepNew(gs0, init, l);
    }
  }

  /** `gs` is the per-seller split of `ls`, as `GroupBySellerSplits` states it. */
  ghost predicate SplitOf(gs: seq<Group>, ls: seq<Line>)
  {
    && DistinctSellers(gs)
    && (forall k :: 0 <= k < |gs| ==> gs[k].lines == LinesOf(ls, gs[k].sellerId) != [])
    && (forall s :: FindGroup(gs, s).Some? <==> LinesOf(ls, s) != [])
  }

  lemma LinesOfSnoc(ls: seq<Line>, l: Line)
    ensures forall t :: LinesOf(ls + [l], t) == LinesOf(ls, t) + (if SellerOf(l) == t then [l] else [])
  {
    assert (ls + [l])[..|ls|] == ls;
  }

  /** A loop step that pushes onto the seller's existing group keeps the split. */
  lemma GroupStepFound(gs0: seq<Group>, ls: seq<Line>, l: Line, k: nat)
    requires SplitOf(gs0, ls) && FindGroup(gs0, SellerOf(l)) == Some(k)
    ensures SplitOf(AddToGroups(gs0, l), ls + [l])
  {
    var gs := AddToGroups(gs0, l);
    LinesOfSnoc(ls, l);
    assert gs == gs0[k := gs0[k].(lines := gs0[k].lines + [l])];
    forall t
      ensures FindGroup(gs, t).Some? <==> LinesOf(ls + [l], t) != []
    {
      if FindGroup(gs0, t).Some? {
        var m := FindGroup(gs0, t).value;
        assert gs[m].sellerId == t;
      }
      if FindGroup(gs, t).Some? {
        var m := FindGroup(gs, t).value;
        assert gs0[m].sellerId == t;
      }
    }
  }

  /** A loop step that opens a group for a new seller keeps the split. */
  lemma GroupStepNew(gs0: seq<Group>, ls: seq<Line>, l: Line)
    requires SplitOf(gs0, ls) && FindGroup(gs0, SellerOf(l)).None?
    ensures SplitOf(AddToGroups(gs0, l), ls + [l])
  {
    var gs, s := AddToGroups(gs0, l), SellerOf(l);
    LinesOfSnoc(ls, l);
    assert gs == gs0 + [Group(s, [l])];
    assert LinesOf(ls, s) == [];
    forall t
      ensures FindGroup(gs, t).Some? <==> LinesOf(ls + [l], t) != []
    {
      if FindGroup(gs0, t).Some? {
        var m := FindGroup(gs0, t).value;
        assert gs[m].sellerId == t;
      }
      if t == s {
        assert gs[|gs0|].sellerId == t;
      }
      if FindGroup(gs, t).Some? && t != s {
        var m := FindGroup(gs, t).value;
        assert gs0[m].sellerId == t;
      }
    }
  }

  /** The group subtotals added up, group by group. */
  function GroupsSum(gs: seq<Group>, f: Line -> int): int
  {
    if gs == [] then 0 else GroupsSum(gs[..|gs| - 1], f) + Sum(gs[|gs| - 1].lines, f)
  }

  lemma {:induction false} GroupsSumUpdate(gs: seq<Group>, k: nat, g: Group, f: Line -> int)
    requires k < |gs|
    ensures GroupsSum(gs[k := g], f) == GroupsSum(gs, f) - Sum(gs[k].lines, f) + Sum(g.lines, f)
  {
    var n := |gs|;
    if k < n - 1 {
      assert gs[k := g][..n - 1] == gs[..n - 1][k := g];
      GroupsSumUpdate(gs[..n - 1], k, g, f);
    } else {
      assert gs[k := g][..n - 1] == gs[..n - 1];
    }
  }

  /** Splitting by seller neither adds nor loses anything that is summed over lines. */
  lemma {:induction false} GroupsSumOfSplit(ls: seq<Line>, f: Line -> int)
    ensures GroupsSum(GroupBySeller(ls), f) == Sum(ls, f)
  {
    if ls != [] {
      var init, l := ls[..|ls| - 1], ls[|ls| - 1];
      GroupsSumOfSplit(init, f);
      var gs0 := GroupBySeller(init);
      assert Sum(ls, f) == Sum(init, f) + f(l);
      assert GroupBySeller(ls) == AddToGroups(gs0, l);
      match FindGroup(gs0, SellerOf(l))
      case Some(k) =>
        var g := gs0[k].(lines := gs0[k].lines + [l]);
        assert AddToGroups(gs0, l) == gs0[k := g];
        GroupsSumUpdate(gs0, k, g, f);
        assert g.lines[..|g.lines| - 1] == gs0[k].lines;
        assert Sum(g.lines, f) == Sum(gs0[k].lines, f) + f(l);
      case None =>
        var gs := gs0 + [Group(SellerOf(l), [l])];
        assert AddToGroups(gs0, l) == gs;
        assert gs[..|gs| - 1] == gs0;
        assert [l][..0] == [];
        assert Sum([l], f) == f(l);
    }
  }

  /** The lines of all groups, group after group. */
  function Flatten(gs: seq<Group>): seq<Line>
  {
    if gs == [] then [] else Flatten(gs[..|gs| - 1]) + gs[|gs| - 1].lines
  }

  lemma {:induction false} SumFlatten(gs: seq<Group>, f: Line -> int)
    ensures Sum(Flatten(gs), f) == GroupsSum(gs, f)
  {
    if gs != [] {
      SumFlatten(gs[..|gs| - 1], f);
      SumAppend(Flatten(gs[..|gs| - 1]), gs[|gs| - 1].lines, f);
    }
  }

  // ---------------------------------------------------------------------------
  // The orders

  /** `items.map(...)`: each line becomes an order item that captures the current price. */
  function Capture(ls: seq<Line>): seq<OrderItem>
  {
    seq(|ls|, k requires 0 <= k < |ls| => OrderItem(ls[k].item.productId, ls[k].item.quantity, ls[k].product.price))
  }

  /** The order created for one seller group. */
  function OrderFor(g: Group, id: Id, buyerId: Id, addressId: Id): Order
  {
    Order(id, buyerId, g.sellerId, addressId, Total(g.lines), Pending, Capture(g.lines))
  }

  /**
   * The orders created for the seller groups, one per group: they take the
   * ids `firstId`, `firstId + 1`, ... in increasing order, and when the
   * groups have distinct sellers so do the orders.
   */
  function NewOrders(gs: seq<Group>, firstId: Id, buyerId: Id, addressId: Id): (os: seq<Order>)
    ensures |os| == |gs|
    ensures forall k :: 0 <= k < |os| ==> firstId <= os[k].id < firstId + |gs|
    ensures forall i, j :: 0 <= i < j < |os| ==> os[i].id < os[j].id
    ensures DistinctSellers(gs) ==> forall i, j :: 0 <= i < j < |os| ==> os[i].sellerId != os[j].sellerId
  {
    seq(|gs|, k requires 0 <= k < |gs| => OrderFor(gs[k], firstId + k, buyerId, addressId))
  }

  /** Order `k` is the order for group `k`, with id `firstId + k`. */
  lemma NewOrdersAt(gs: seq<Group>, firstId: Id, buyerId: Id, addressId: Id)
    ensures var os := NewOrders(gs, firstId, buyerId, addressId);
      forall k :: 0 <= k < |os| ==> os[k] == OrderFor(gs[k], firstId + k, buyerId, addressId)
  {
  }

  /** The `totalAmount`s of the orders, added up. */
  function OrdersTotal(os: seq<Order>): int
  {
    if os == [] then 0 else OrdersTotal(os[..|os| - 1]) + os[|os| - 1].totalAmount
  }

  /**
   * Money is conserved by the split: the orders built from the seller groups
   * add up to the total charged for the whole cart.
   */
  lemma {:induction false} OrdersAddUpToTotal(ls: seq<Line>, os: seq<Order>, firstId: Id, buyerId: Id, addressId: Id)
    requires |os| == |GroupBySeller(ls)|
    requires forall k :: 0 <= k < |os| ==> os[k] == OrderFor(GroupBySeller(ls)[k], firstId + k, buyerId, addressId)
    ensures OrdersTotal(os) == Total(ls)
  {
    OrdersTotalOfGroups(GroupBySeller(ls), os, firstId, buyerId, addressId);
    GroupsSumOfSplit(ls, LineTotal);
  }

  lemma {:induction false} OrdersTotalOfGroups(gs: seq<Group>, os: seq<Order>, firstId: Id, buyerId: Id, addressId: Id)
    requires |os| == |gs|
    requires forall k :: 0 <= k < |os| ==> os[k] == OrderFor(gs[k], firstId + k, buyerId, addressId)
    ensures OrdersTotal(os) == GroupsSum(gs, LineTotal)
  {
    if os != [] {
      OrdersTotalOfGroups(gs[..|gs| - 1], os[..|os| - 1], firstId, buyerId, addressId);
    }
  }

  // ---------------------------------------------------------------------------
  // Stock

  /** `product.update({ where: { id: pid }, data: { stock: { decrement: q } } })`. */
  function DecrementStock(products: seq<Product>, pid: Id, q: int): seq<Product>
  {
    seq(|products|, j requires 0 <= j < |products| =>
      if products[j].id == pid then products[j].(stock := products[j].stock - q) else products[j])
  }

  /** The product table after one stock decrement per line, in order. */
  function DecrementAll(products: seq<Product>, ls: seq<Line>): seq<Product>
  {
    if ls == [] then products
    else
      var last := ls[|ls| - 1];
      DecrementStock(DecrementAll(products, ls[..|ls| - 1]), last.item.productId, last.item.quantity)
  }

  /** Decrementing for `a` and then for `b` is decrementing for `a + b`. */
  lemma {:induction false} DecrementAllConcat(products: seq<Product>, a: seq<Line>, b: seq<Line>)
    ensures DecrementAll(products, a + b) == DecrementAll(DecrementAll(products, a), b)
  {
    if b == [] {
      assert a + b == a;
    } else {
      assert (a + b)[..|a + b| - 1] == a + b[..|b| - 1];
      DecrementAllConcat(products, a, b[..|b| - 1]);
    }
  }

  /** One more group's lines extend the flattened sequence at its end. */
  lemma FlattenSnoc(gs: seq<Group>, k: nat)
    requires k < |gs|
    ensures Flatten(gs[..k + 1]) == Flatten(gs[..k]) + gs[k].lines
  {
    assert gs[..k + 1][..k] == gs[..k];
  }

  /** Stock decrements keep every row's position and id. */
  lemma {:induction false} DecrementAllKeepsIds(products: seq<Product>, ls: seq<Line>)
    ensures |DecrementAll(products, ls)| == |products|
    ensures forall j :: 0 <= j < |products| ==> DecrementAll(products, ls)[j].id == products[j].id
  {
    if ls != [] {
      DecrementAllKeepsIds(products, ls[..|ls| - 1]);
    }
  }

  lemma DecrementKeepsProductsOk(products: seq<Product>, ls: seq<Line>, nextId: nat)
    requires ProductsOk(products, nextId)
    ensures ProductsOk(DecrementAll(products, ls), nextId)
  {
    DecrementAllKeepsIds(products, ls);
  }

  /** Each product loses exactly the quantity the lines take from it, and nothing else changes. */
  lemma {:induction false} DecrementAllAt(products: seq<Product>, ls: seq<Line>)
    ensures |DecrementAll(products, ls)| == |products|
    ensures forall j :: 0 <= j < |products| ==>
      DecrementAll(products, ls)[j] == products[j].(stock := products[j].stock - Sum(ls, QuantityOf(products[j].id)))
  {
    if ls != [] {
      DecrementAllAt(products, ls[..|ls| - 1]);
    }
  }

  /** When no product repeats among the lines, a product's share is its own line's quantity, or none. */
  lemma {:induction false} QuantityOfDistinct(ls: seq<Line>, pid: Id)
    requires DistinctLineProducts(ls)
    ensures (forall k :: 0 <= k < |ls| ==> ls[k].item.productId != pid) ==> Sum(ls, QuantityOf(pid)) == 0
    ensures forall k :: 0 <= k < |ls| && ls[k].item.productId == pid ==> Sum(ls, QuantityOf(pid)) == ls[k].item.quantity
  {
    if ls != [] {
      var init := ls[..|ls| - 1];
      QuantityOfDistinct(init, pid);
      if ls[|ls| - 1].item.productId == pid {
        assert forall k :: 0 <= k < |init| ==> init[k].item.productId != pid by {
          forall k | 0 <= k < |init| ensures init[k].item.productId != pid {
            assert init[k] == ls[k];
          }
        }
      } else {
        assert forall k :: 0 <= k < |ls| - 1 ==> init[k] == ls[k];
      }
    }
  }

  /** The product table once every line of the split has been taken out of stock. */
  function StockAfter(products: seq<Product>, ls: seq<Line>): seq<Product>
  {
    DecrementAll(products, Flatten(GroupBySeller(ls)))
  }

  /**
   * `after` is `before` with the lines taken out of stock: row by row only
   * the stock changes; a product that has a line loses exactly that line's
   * quantity and does not go below zero; every other product row is left as
   * it was.
   */
  ghost predicate StockTaken(before: seq<Product>, after: seq<Product>, ls: seq<Line>)
  {
    && |after| == |before|
    && (forall j :: 0 <= j < |before| ==> after[j] == before[j].(stock := after[j].stock))
    && (forall j, k :: 0 <= j < |before| && 0 <= k < |ls| && ls[k].item.productId == before[j].id ==>
          after[j].stock == before[j].stock - ls[k].item.quantity >= 0)
    && (forall j :: 0 <= j < |before| && (forall k :: 0 <= k < |ls| ==> ls[k].item.productId != before[j].id) ==>
          after[j] == before[j])
  }

  /** Stock after checkout, when each product has at most one line and the stock check passed. */
  lemma StockAfterCheckout(products: seq<Product>, ls: seq<Line>)
    requires DistinctProductIds(products)
    requires DistinctLineProducts(ls)
    requires forall k :: 0 <= k < |ls| ==> ls[k].product in products && ls[k].product.id == ls[k].item.productId
    requires forall k :: 0 <= k < |ls| ==> ls[k].item.quantity <= ls[k].product.stock
    ensures StockTaken(products, StockAfter(products, ls), ls)
  {
    var gs := GroupBySeller(ls);
    DecrementAllAt(products, Flatten(gs));
    forall j | 0 <= j < |products|
      ensures Sum(Flatten(gs), QuantityOf(products[j].id)) == Sum(ls, QuantityOf(products[j].id))
    {
      SumFlatten(gs, QuantityOf(products[j].id));
      GroupsSumOfSplit(ls, QuantityOf(products[j].id));
    }
    forall j | 0 <= j < |products|
      ensures (forall k :: 0 <= k < |ls| ==> ls[k].item.productId != products[j].id) ==> Sum(ls, QuantityOf(products[j].id)) == 0
      ensures forall k :: 0 <= k < |ls| && ls[k].item.productId == products[j].id ==>
        Sum(ls, QuantityOf(products[j].id)) == ls[k].item.quantity
    {
      QuantityOfDistinct(ls, products[j].id);
    }
    forall j, k | 0 <= j < |products| && 0 <= k < |ls| && ls[k].item.productId == products[j].id
      ensures ls[k].product == products[j]
    {
      var m :| 0 <= m < |products| && products[m] == ls[k].product;
      assert products[m].id == products[j].id;
    }
  }
}

=== FILE: ordering.dfy ===
/**
 * Filtering and ordering used by the listing endpoints and the scoped
 * deletes: an order-keeping filter (a `where` clause), a generic insertion
 * sort over a total preorder, the newest-first order on creation stamps, and
 * the lexicographic order on strings that stands for the database's
 * `orderBy: { name: 'asc' }`.
 */
module Ordering {

  /** The elements of `s` that `keep` accepts, in their order in `s`. */
  function Filter<T(!new)>(s: seq<T>, keep: T -> bool): (r: seq<T>)
    ensures forall x :: x in r <==> x in s && keep(x)
    ensures |r| <= |s|
  {
    if s == [] then []
    else (if keep(s[0]) then [s[0]] else []) + Filter(s[1..], keep)
  }

  /** A filter that accepts every element returns its input unchanged. */
  lemma {:induction false} FilterKeepsAll<T(!new)>(s: seq<T>, keep: T -> bool)
    requires forall x :: x in s ==> keep(x)
    ensures Filter(s, keep) == s
  {
    if s != [] {
      assert s[0] in s;
      FilterKeepsAll(s[1..], keep);
      assert s == [s[0]] + s[1..];
    }
  }

  /** Filtering a sequence with one more element at the end. */
  lemma {:induction false} FilterAppend<T(!new)>(s: seq<T>, x: T, keep: T -> bool)
    ensures Filter(s + [x], keep) == Filter(s, keep) + (if keep(x) then [x] else [])
  {
    if s != [] {
      assert (s + [x])[1..] == s[1..] + [x];
      FilterAppend(s[1..], x, keep);
    }
  }

  /** `le` is total and transitive: every two values are comparable. */
  ghost predicate IsTotalPreorder<T(!new)>(le: (T, T) -> bool)
  {
    && (forall a, b :: le(a, b) || le(b, a))
    && (forall a, b, c :: le(a, b) && le(b, c) ==> le(a, c))
  }

  /** Every earlier element is `le` every later one. */
  predicate Sorted<T>(s: seq<T>, le: (T, T) -> bool)
  {
    forall i, j :: 0 <= i < j < |s| ==> le(s[i], s[j])
  }

  /** Inserts `x` into the sorted `s`, in front of the first element it is `le` to. */
  function Insert<T(==,!new)>(x: T, s: seq<T>, le: (T, T) -> bool): (r: seq<T>)
    requires IsTotalPreorder(le) && Sorted(s, le)
    ensures Sorted(r, le)
    ensures multiset(r) == multiset(s) + multiset{x}
  {
    if s == [] then [x]
    else if le(x, s[0]) then [x] + s
    else
      var rest := Insert(x, s[1..], le);
      InsertKeepsHeadFirst(x, s, rest, le);
      assert s == [s[0]] + s[1..];
      [s[0]] + rest
  }

  /** The head of a sorted `s` comes before everything `x` is inserted among. */
  lemma InsertKeepsHeadFirst<T(!new)>(x: T, s: seq<T>, rest: seq<T>, le: (T, T) -> bool)
    requires IsTotalPreorder(le) && Sorted(s, le) && s != [] && !le(x, s[0])
    requires multiset(rest) == multiset(s[1..]) + multiset{x}
    ensures forall j :: 0 <= j < |rest| ==> le(s[0], rest[j])
  {
    assert s == [s[0]] + s[1..];
    forall j | 0 <= j < |rest|
      ensures le(s[0], rest[j])
    {
      assert rest[j] in multiset(rest);
      if rest[j] != x {
        assert rest[j] in multiset(s[1..]);
        var m :| 0 <= m < |s[1..]| && s[1..][m] == rest[j];
        assert s[m + 1] == rest[j];
      }
    }
  }

  /** Sorts `s` by `le` (insertion sort); the result is a permutation of `s`. */
  function SortBy<T(==,!new)>(s: seq<T>, le: (T, T) -> bool): (r: seq<T>)
    requires IsTotalPreorder(le)
    ensures Sorted(r, le)
    ensures multiset(r) == multiset(s)
  {
    if s == [] then []
    else
      assert s == [s[0]] + s[1..];
      Insert(s[0], SortBy(s[1..], le), le)
  }

  /** `orderBy: { createdAt: 'desc' }` for rows whose creation stamp is `stamp`. */
  function NewestFirst<T>(stamp: T -> nat): (T, T) -> bool
  {
    (x: T, y: T) => stamp(x) >= stamp(y)
  }

  lemma NewestFirstIsTotalPreorder<T(!new)>(stamp: T -> nat)
    ensures IsTotalPreorder(NewestFirst(stamp))
  {
  }

  /** Lexicographic order on strings, code point by code point; a prefix comes first. */
  predicate LexLe(a: string, b: string)
  {
    a == [] || (b != [] && (a[0] < b[0] || (a[0] == b[0] && LexLe(a[1..], b[1..]))))
  }

  lemma {:induction false} LexLeTotal(a: string, b: string)
    ensures LexLe(a, b) || LexLe(b, a)
  {
    if a != [] && b != [] && a[0] == b[0] {
      LexLeTotal(a[1..], b[1..]);
    }
  }

  lemma {:induction false} LexLeTransitive(a: string, b: string, c: string)
    requires LexLe(a, b) && LexLe(b, c)
    ensures LexLe(a, c)
  {
    if a != [] && b != [] && c != [] && a[0] == b[0] && b[0] == c[0] {
      LexLeTransitive(a[1..], b[1..], c[1..]);
    }
  }
}

=== FILE: orders.dfy ===
/**
 * POST /api/orders: place one order per seller for everything in the
 * caller's cart, paid from the caller's wallet.
 */
module Orders {
  import opened Store
  import opened Checkout

  /** The product has enough stock for the line. */
  predicate StockCovers(l: Line)
  {
    l.item.quantity <= l.product.stock
  }

  /**
   * The validation loop: stops at the first line its product cannot cover;
   * otherwise accumulates `totalPrice` and fills `itemsBySeller`.
   */
  method TallyCart(lines: seq<Line>) returns (stockOk: bool, total: int, bySeller: seq<Group>)
    ensures stockOk <==> forall k :: 0 <= k < |lines| ==> StockCovers(lines[k])
    ensures stockOk ==> total == Total(lines) && bySeller == GroupBySeller(lines)
  {
    total, bySeller := 0, [];
    for i := 0 to |lines|
      invariant forall k :: 0 <= k < i ==> StockCovers(lines[k])
      invariant total == Total(lines[..i]) && bySeller == GroupBySeller(lines[..i])
    {
      var l := lines[i];
      if l.product.stock < l.item.quantity {
        return false, 0, [];
      }
      assert lines[..i + 1][..i] == lines[..i];
      total := total + l.product.price * l.item.quantity;
      bySeller := AddToGroups(bySeller, l);
    }
    assert lines[..|lines|] == lines;
    stockOk := true;
  }

  /** One seller's subtotal (`sellerTotalPrice`), accumulated line by line. */
  method SellerTotal(lines: seq<Line>) returns (t: int)
    ensures t == Total(lines)
  {
    t := 0;
    for i := 0 to |lines|
      invariant t == Total(lines[..i])
    {
      assert lines[..i + 1][..i] == lines[..i];
      t := t + lines[i].product.price * lines[i].item.quantity;
    }
    assert lines[..|lines|] == lines;
  }

  /** The stock updates of one seller group, one line after another. */
  method TakeStock(products: seq<Product>, ls: seq<Line>) returns (ps: seq<Product>)
    ensures ps == DecrementAll(products, ls)
  {
    ps := products;
    for i := 0 to |ls|
      invariant ps == DecrementAll(products, ls[..i])
    {
      assert ls[..i + 1][..i] == ls[..i];
      ps := DecrementStock(ps, ls[i].item.productId, ls[i].item.quantity);
    }
    assert ls[..|ls|] == ls;
  }

  /**
   * The loop inside the transaction: for each seller group, create its order
   * with the next id, then take the group's lines out of stock.
   */
  method CreateOrders(bySeller: seq<Group>, firstId: Id, uid: Id, addressId: Id, products0: seq<Product>)
    returns (created: seq<Order>, products: seq<Product>)
    ensures created == NewOrders(bySeller, firstId, uid, addressId)
    ensures products == DecrementAll(products0, Flatten(bySeller))
  {
    created, products := [], products0;
    var nextId := firstId;
    for k := 0 to |bySeller|
      invariant |created| == k && nextId == firstId + k
      invariant forall j :: 0 <= j < k ==> created[j] == OrderFor(bySeller[j], firstId + j, uid, addressId)
      invariant products == DecrementAll(products0, Flatten(bySeller[..k]))
    {
      var g := bySeller[k];
      var sellerTotal := SellerTotal(g.lines);
      var order := Order(nextId, uid, g.sellerId, addressId, sellerTotal, Pending, Capture(g.lines));
      created, nextId := created + [order], nextId + 1;
      FlattenSnoc(bySeller, k);
      DecrementAllConcat(products0, Flatten(bySeller[..k]), g.lines);
      products := TakeStock(products, g.lines);
    }
    assert bySeller[..|bySeller|] == bySeller;
    NewOrdersAt(bySeller, firstId, uid, addressId);
  }

  /**
   * The tables after the transaction commits: `uid`'s wallet debited by
   * `total` and the debit logged, one new order per group of `gs`, the
   * groups' lines taken out of stock, and the buyer's cart emptied.
   */
  function Committed(t: Tables, uid: Id, addressId: Id, total: int, gs: seq<Group>): Tables
    requires uid in t.users
  {
    var created := NewOrders(gs, t.nextId, uid, addressId);
    t.(users := Credit(t.users, uid, -total),
       ledger := t.ledger + [WalletTransaction(uid, -total, Purchase)],
       orders := t.orders + created,
       products := DecrementAll(t.products, Flatten(gs)),
       cart := OtherCarts(t.cart, uid),
       nextId := t.nextId + |created|)
  }

  /** The tables after a successful checkout of `lines` by `uid`. */
  function AfterCheckout(t: Tables, uid: Id, addressId: Id, lines: seq<Line>): Tables
    requires uid in t.users
  {
    Committed(t, uid, addressId, Total(lines), GroupBySeller(lines))
  }

  /** Orders numbered from `firstId` on keep every order id below the advanced counter. */
  lemma CreatedOrdersOk(orders: seq<Order>, gs: seq<Group>, firstId: Id, uid: Id, addressId: Id)
    requires OrdersOk(orders, firstId)
    ensures OrdersOk(orders + NewOrders(gs, firstId, uid, addressId), firstId + |gs|)
  {
  }

  /** A checkout the wallet can pay for keeps the store invariant. */
  lemma CheckoutKeepsConsistent(t: Tables, uid: Id, addressId: Id, lines: seq<Line>)
    requires Consistent(t) && uid in t.users && Total(lines) <= t.users[uid].walletBalance
    ensures Consistent(AfterCheckout(t, uid, addressId, lines))
  {
    var gs := GroupBySeller(lines);
    var users', ledger' := Credit(t.users, uid, -Total(lines)), t.ledger + [WalletTransaction(uid, -Total(lines), Purchase)];
    var products', cart' := StockAfter(t.products, lines), OtherCarts(t.cart, uid);
    var orders', n' := t.orders + NewOrders(gs, t.nextId, uid, addressId), t.nextId + |gs|;
    assert AfterCheckout(t, uid, addressId, lines) == Tables(users', products', cart', t.addresses, orders', ledger', n');
    CreditKeepsUsersOk(t.users, t.ledger, t.nextId, n', uid, -Total(lines), Purchase);
    StockKeepsProductsOk(t.products, lines, t.nextId, n');
    ClearKeepsCartOk(t.cart, uid, t.nextId, n');
    AddressesOkGrows(t.addresses, t.nextId, n');
    CreatedOrdersOk(t.orders, gs, t.nextId, uid, addressId);
  }

  // The store invariant, table by table, across a checkout that hands out ids up to `n'`.

  lemma StockKeepsProductsOk(products: seq<Product>, lines: seq<Line>, n: nat, n': nat)
    requires ProductsOk(products, n) && n <= n'
    ensures ProductsOk(StockAfter(products, lines), n')
  {
    DecrementKeepsProductsOk(products, Flatten(GroupBySeller(lines)), n);
  }

  lemma ClearKeepsCartOk(cart: seq<CartItem>, uid: Id, n: nat, n': nat)
    requires CartOk(cart, n) && n <= n'
    ensures CartOk(OtherCarts(cart, uid), n')
  {
    OtherCartsOk(cart, uid, n);
  }

  /**
   * The body of the database transaction, applied as one atomic update:
   * debit the wallet, log the purchase, create an order per seller group and
   * take each line out of stock, then empty the buyer's cart. The store
   * invariant after it is `CheckoutKeepsConsistent`.
   */
  method Commit(db: Db, uid: Id, addressId: Id, total: int, bySeller: seq<Group>)
    returns (created: seq<Order>)
    requires uid in db.users
    modifies db
    ensures created == NewOrders(bySeller, old(db.nextId), uid, addressId)
    ensures db.Snapshot() == Committed(old(db.Snapshot()), uid, addressId, total, bySeller)
  {
    var users := Credit(db.users, uid, -total);
    var ledger := db.ledger + [WalletTransaction(uid, -total, Purchase)];
    var products;
    created, products := CreateOrders(bySeller, db.nextId, uid, addressId, db.products);
    var cart := OtherCarts(db.cart, uid);
    db.users, db.ledger, db.products, db.orders, db.nextId, db.cart
      := users, ledger, products, db.orders + created, db.nextId + |created|, cart;
  }

  // ---------------------------------------------------------------------------
  // What a checkout does to the tables

  /**
   * The buyer's balance drops by exactly the cart total, no other user
   * changes, and exactly one PURCHASE entry of minus the total is logged.
   */
  lemma CheckoutDebits(t: Tables, uid: Id, addressId: Id, lines: seq<Line>)
    requires uid in t.users
    ensures var t' := AfterCheckout(t, uid, addressId, lines);
      && t'.users.Keys == t.users.Keys
      && t'.users[uid].walletBalance == t.users[uid].walletBalance - Total(lines)
      && (forall id :: id in t.users && id != uid ==> t'.users[id] == t.users[id])
      && t'.ledger == t.ledger + [WalletTransaction(uid, -Total(lines), Purchase)]
      && (LedgerMatchesBalances(t.users, t.ledger) ==> LedgerMatchesBalances(t'.users, t'.ledger))
  {
    var t' := AfterCheckout(t, uid, addressId, lines);
    assert t'.users == Credit(t.users, uid, -Total(lines));
    assert t'.ledger == t.ledger + [WalletTransaction(uid, -Total(lines), Purchase)];
    CreditMoves(t.users, uid, -Total(lines));
    if LedgerMatchesBalances(t.users, t.ledger) {
      PairedUpdateKeepsLedger(t.users, t.ledger, uid, -Total(lines), Purchase);
    }
  }

  /**
   * One order per distinct seller of the cart: sellers do not repeat, a
   * seller gets an order exactly when it sells one of the lines, and each
   * order holds that seller's lines with their captured prices and their
   * subtotal. The order totals add up to the amount debited.
   */
  lemma CheckoutOrders(t: Tables, uid: Id, addressId: Id, lines: seq<Line>)
    requires uid in t.users
    ensures var t', created := AfterCheckout(t, uid, addressId, lines),
                               NewOrders(GroupBySeller(lines), t.nextId, uid, addressId);
      && t'.orders == t.orders + created
      && t'.nextId == t.nextId + |created|
      && OrdersTotal(created) == Total(lines)
      && (forall i, j :: 0 <= i < j < |created| ==> created[i].sellerId != created[j].sellerId)
      && (forall s :: (exists k :: 0 <= k < |created| && created[k].sellerId == s) <==> LinesOf(lines, s) != [])
      && (forall k :: 0 <= k < |created| ==>
            var mine := LinesOf(lines, created[k].sellerId);
            && created[k] == Order(t.nextId + k, uid, created[k].sellerId, addressId, Total(mine), Pending, Capture(mine))
            && (forall l :: l in mine <==> l in lines && SellerOf(l) == created[k].sellerId))
  {
    var gs := GroupBySeller(lines);
    var created := NewOrders(gs, t.nextId, uid, addressId);
    NewOrdersAt(gs, t.nextId, uid, addressId);
    GroupBySellerSplits(lines);
    OrdersAddUpToTotal(lines, created, t.nextId, uid, addressId);
    forall s
      ensures (exists k :: 0 <= k < |created| && created[k].sellerId == s) <==> LinesOf(lines, s) != []
    {
      if LinesOf(lines, s) != [] {
        var k := FindGroup(gs, s).value;
        assert created[k].sellerId == s;
      }
    }
    forall k | 0 <= k < |created|
      ensures forall l :: l in LinesOf(lines, created[k].sellerId) <==> l in lines && SellerOf(l) == created[k].sellerId
    {
      LinesOfMembers(lines, created[k].sellerId);
    }
  }

  /**
   * Stock after a checkout whose lines all passed the stock check: each
   * product in the cart loses exactly its line's quantity and stays
   * non-negative; every other product is unchanged.
   */
  lemma CheckoutTakesStock(t: Tables, uid: Id, addressId: Id, lines: seq<Line>)
    requires DistinctProductIds(t.products) && UniqueCartLines(t.cart) && uid in t.users
    requires Join(UserCart(t.cart, uid), t.products) == Some(lines)
    requires forall k :: 0 <= k < |lines| ==> StockCovers(lines[k])
    ensures StockTaken(t.products, AfterCheckout(t, uid, addressId, lines).products, lines)
  {
    CartLinesDistinct(t.cart, t.products, uid, lines);
    assert AfterCheckout(t, uid, addressId, lines).products == StockAfter(t.products, lines);
    StockAfterCheckout(t.products, lines);
  }

  /** The buyer's joined cart names each product once, with its own product row. */
  lemma CartLinesDistinct(cart: seq<CartItem>, products: seq<Product>, uid: Id, lines: seq<Line>)
    requires UniqueCartLines(cart) && Join(UserCart(cart, uid), products) == Some(lines)
    ensures DistinctLineProducts(lines)
    ensures forall k :: 0 <= k < |lines| ==> lines[k].product in products && lines[k].product.id == lines[k].item.productId
  {
    var items := UserCart(cart, uid);
    UserCartDistinctProducts(cart, uid);
    forall i, j | 0 <= i < j < |lines|
      ensures lines[i].item.productId != lines[j].item.productId
    {
      assert lines[i].item == items[i] && lines[j].item == items[j];
    }
  }

  /** The buyer's cart is emptied; every other user's rows stay, in order. */
  lemma CheckoutEmptiesCart(t: Tables, uid: Id, addressId: Id, lines: seq<Line>)
    requires uid in t.users
    ensures var t' := AfterCheckout(t, uid, addressId, lines);
      && UserCart(t'.cart, uid) == []
      && (forall x :: x in t'.cart <==> x in t.cart && x.userId != uid)
      && (forall u :: u != uid ==> UserCart(t'.cart, u) == UserCart(t.cart, u))
      && t'.addresses == t.addresses
  {
    var rest := OtherCarts(t.cart, uid);
    OtherCartsMembers(t.cart, uid);
    forall u | u != uid
      ensures UserCart(rest, u) == UserCart(t.cart, u)
    {
      OtherCartsKeepsUserCart(t.cart, uid, u);
    }
    forall k | 0 <= k < |rest|
      ensures rest[k].userId != uid
    {
      assert rest[k] in rest;
    }
    UserCartOfNoRows(rest, uid);
  }

  /** The caller's cart rows joined with their products, when every product row exists. */
  function CartLines(cart: seq<CartItem>, products: seq<Product>, uid: Id): seq<Line>
  {
    match Join(UserCart(cart, uid), products)
    case Some(lines) => lines
    case None => []
  }

  /** The buyer exists and the wallet covers `total`. */
  predicate CanAfford(users: map<Id, User>, uid: Id, total: int)
  {
    uid in users && total <= users[uid].walletBalance
  }

  /**
   * The route handler. Status 401 without a session, 400 without an address,
   * 500 when a cart row's product is missing (the relation the query includes
   * is required), 400 for an empty cart, a line its stock cannot cover, or a
   * wallet that cannot pay; otherwise 201 with the created orders. Every
   * rejection leaves the store exactly as it was.
   */
  method PlaceOrder(db: Db, caller: Option<Session>, addressId: Option<Id>)
    returns (status: int, created: seq<Order>)
    requires db.Valid()
    modifies db
    ensures db.Valid()
    ensures caller.None? ==> status == 401
    ensures caller.Some? && addressId.None? ==> status == 400
    ensures caller.Some? && addressId.Some? ==>
      match Join(UserCart(old(db.cart), caller.value.userId), old(db.products))
      case None => status == 500
      case Some(lines) =>
        if lines == [] then status == 400
        else if exists k :: 0 <= k < |lines| && !StockCovers(lines[k]) then status == 400
        else if !CanAfford(old(db.users), caller.value.userId, Total(lines)) then status == 400
        else status == 201
    ensures status != 201 ==> created == [] && unchanged(db)
    ensures status == 201 ==> caller.Some? && addressId.Some? && caller.value.userId in old(db.users)
    ensures status == 201 ==>
      var uid, lines := caller.value.userId, CartLines(old(db.cart), old(db.products), caller.value.userId);
      && created == NewOrders(GroupBySeller(lines), old(db.nextId), uid, addressId.value)
      && db.Snapshot() == AfterCheckout(old(db.Snapshot()), uid, addressId.value, lines)
  {
    created := [];
    if caller.None? {
      return 401, [];
    }
    if addressId.None? {
      return 400, [];
    }
    var uid := caller.value.userId;
    var cartLines := Join(UserCart(db.cart, uid), db.products);
    if cartLines.None? {
      return 500, [];
    }
    var lines := cartLines.value;
    if |lines| == 0 {
      return 400, [];
    }
    var stockOk, total, bySeller := TallyCart(lines);
    if !stockOk {
      return 400, [];
    }
    if !CanAfford(db.users, uid, total) {
      return 400, [];
    }
    assert CartLines(db.cart, db.products, uid) == lines;
    CheckoutKeepsConsistent(db.Snapshot(), uid, addressId.value, lines);
    created := Commit(db, uid, addressId.value, total, bySeller);
    status := 201;
  }
}

=== FILE: register.dfy ===
/**
 * POST /api/auth/register: create a buyer account, unless the email is
 * already registered. The password is stored only as its hash, and the
 * answer projects the new row onto its public columns.
 */
module Register {
  import opened Store

  /** The role column's default, which the insert does not set. */
  const DefaultRole := Buyer

  /** The request body; an absent field is "". */
  datatype RegisterForm = RegisterForm(name: string, email: string, password: string)

  /** The answer to a registration: the public columns, and no password hash. */
  datatype PublicUser = PublicUser(id: Id, name: string, email: string, role: Role)

  predicate CompleteRegistration(f: RegisterForm)
  {
    f.name != "" && f.email != "" && f.password != ""
  }

  /** The row the POST inserts; `hash` stands for `bcrypt.hash(_, 10)`. */
  function NewUserRow(f: RegisterForm, id: Id, hash: string -> string): User
  {
    User(id, f.name, f.email, hash(f.password), DefaultRole, 0)
  }

  function AfterRegister(t: Tables, f: RegisterForm, hash: string -> string): Tables
  {
    t.(users := t.users[t.nextId := NewUserRow(f, t.nextId, hash)], nextId := t.nextId + 1)
  }

  lemma RegisterKeepsConsistent(t: Tables, f: RegisterForm, hash: string -> string)
    requires Consistent(t) && !EmailTaken(t.users, f.email)
    ensures Consistent(AfterRegister(t, f, hash))
  {
    var n := t.nextId;
    assert n !in t.users;
    LedgerSumAbsent(t.ledger, n);
    ProductsOkGrows(t.products, n, n + 1);
    CartOkGrows(t.cart, n, n + 1);
    AddressesOkGrows(t.addresses, n, n + 1);
    OrdersOkGrows(t.orders, n, n + 1);
  }

  /**
   * A registration adds exactly one user under a fresh id, keeps every
   * existing user as it was, keeps emails unique, and stores the hash of the
   * password with an empty wallet.
   */
  lemma RegisterAddsOne(t: Tables, f: RegisterForm, hash: string -> string)
    requires Consistent(t) && !EmailTaken(t.users, f.email)
    ensures var t', n := AfterRegister(t, f, hash), t.nextId;
      && n !in t.users
      && t'.users.Keys == t.users.Keys + {n}
      && |t'.users| == |t.users| + 1
      && (forall id :: id in t.users ==> t'.users[id] == t.users[id])
      && t'.users[n].name == f.name && t'.users[n].email == f.email
      && t'.users[n].passwordHash == hash(f.password)
      && t'.users[n].role == DefaultRole && t'.users[n].walletBalance == 0
      && UniqueEmails(t'.users)
      && EmailTaken(t'.users, f.email)
      && t' == t.(users := t'.users, nextId := n + 1)
  {
    assert t.nextId !in t.users;
  }

  /**
   * The POST handler: 400 when a field is empty; 409 when a user already
   * has this email; otherwise 201 with the new user's id, name, email and
   * role.
   */
  method RegisterUser(db: Db, f: RegisterForm, hash: string -> string)
    returns (status: int, body: Option<PublicUser>)
    requires db.Valid()
    modifies db
    ensures db.Valid()
    ensures !CompleteRegistration(f) ==> status == 400
    ensures CompleteRegistration(f) && EmailTaken(old(db.users), f.email) ==> status == 409
    ensures CompleteRegistration(f) && !EmailTaken(old(db.users), f.email) ==> status == 201
    ensures status != 201 ==> body.None? && unchanged(db)
    ensures status == 201 ==>
      && body == Some(PublicUser(old(db.nextId), f.name, f.email, DefaultRole))
      && db.Snapshot() == AfterRegister(old(db.Snapshot()), f, hash)
  {
    if !CompleteRegistration(f) {
      return 400, None;
    }
    if EmailTaken(db.users, f.email) {
      return 409, None;
    }
    RegisterKeepsConsistent(db.Snapshot(), f, hash);
    var u := NewUserRow(f, db.nextId, hash);
    db.users := db.users[db.nextId := u];
    db.nextId := db.nextId + 1;
    return 201, Some(PublicUser(u.id, u.name, u.email, u.role));
  }
}

=== FILE: sellerproducts.dfy ===
/**
 * The seller's own catalogue. GET /api/seller/products lists the caller's
 * products, newest first; POST /api/seller/products creates a product owned
 * by the caller; DELETE /api/seller/products/[id] removes the product with
 * that id only when the caller owns it. Every verb first requires a session
 * whose role is seller.
 */
module SellerProducts {
  import opened Store
  import opened Ordering

  /** The role gate shared by the three verbs. */
  predicate IsSeller(caller: Option<Session>)
  {
    caller.Some? && caller.value.role == Seller
  }

  // ---------------------------------------------------------------------------
  // GET

  /** The creation stamp the listing orders by, newest first. */
  function CreatedAt(p: Product): nat
  {
    p.createdAt
  }

  /** `where: { sellerId }`: the products the seller owns, in table order. */
  function ProductsOf(products: seq<Product>, sid: Id): (r: seq<Product>)
    ensures forall p :: p in r <==> p in products && p.sellerId == sid
  {
    Filter(products, (p: Product) => p.sellerId == sid)
  }

  /**
   * The GET handler: 401 unless the caller is a seller; otherwise 200 with
   * exactly the caller's products, newest first.
   */
  function ListSellerProducts(t: Tables, caller: Option<Session>): (r: Listing<Product>)
    ensures !IsSeller(caller) ==> r == Listing(401, [])
    ensures IsSeller(caller) ==>
      && r.status == 200
      && Sorted(r.rows, NewestFirst(CreatedAt))
      && multiset(r.rows) == multiset(ProductsOf(t.products, caller.value.userId))
      && (forall p :: p in r.rows <==> p in t.products && p.sellerId == caller.value.userId)
  {
    if !IsSeller(caller) then Listing(401, [])
    else
      NewestFirstIsTotalPreorder(CreatedAt);
      var rows := SortBy(ProductsOf(t.products, caller.value.userId), NewestFirst(CreatedAt));
      assert forall p :: p in rows <==> p in multiset(rows);
      Listing(200, rows)
  }

  // ---------------------------------------------------------------------------
  // POST

  /**
   * The request body. An absent or empty string is "", an absent or empty
   * number is 0: both are what the handler's truthiness test rejects.
   */
  datatype ProductForm = ProductForm(name: string, description: string, price: int, stock: int,
                                     category: string, imageUrl: Option<string>)

  /** Every field but the image is truthy: non-empty strings, non-zero numbers. */
  predicate CompleteForm(f: ProductForm)
  {
    f.name != "" && f.description != "" && f.price != 0 && f.stock != 0 && f.category != ""
  }

  /** The row the POST creates: the form's fields, owned by `sid`, with the next id. */
  function NewProductRow(f: ProductForm, sid: Id, id: Id): Product
  {
    Product(id, sid, f.name, f.description, f.price, f.stock, f.category, f.imageUrl, id)
  }

  function AfterCreateProduct(t: Tables, sid: Id, f: ProductForm): Tables
  {
    t.(products := t.products + [NewProductRow(f, sid, t.nextId)], nextId := t.nextId + 1)
  }

  lemma CreateProductKeepsConsistent(t: Tables, sid: Id, f: ProductForm)
    requires Consistent(t)
    ensures Consistent(AfterCreateProduct(t, sid, f))
  {
    var n := t.nextId;
    UsersOkGrows(t.users, t.ledger, n, n + 1);
    CartOkGrows(t.cart, n, n + 1);
    AddressesOkGrows(t.addresses, n, n + 1);
    OrdersOkGrows(t.orders, n, n + 1);
  }

  /**
   * A created product is the only change: it is appended with the form's
   * fields, its seller is the caller, and looking its id up finds it.
   */
  lemma CreateProductAddsOne(t: Tables, sid: Id, f: ProductForm)
    requires Consistent(t)
    ensures var t', p := AfterCreateProduct(t, sid, f), NewProductRow(f, sid, t.nextId);
      && t'.products == t.products + [p]
      && p.sellerId == sid
      && p.name == f.name && p.description == f.description && p.price == f.price
      && p.stock == f.stock && p.category == f.category && p.imageUrl == f.imageUrl
      && FindProduct(t'.products, t.nextId) == Some(p)
      && t' == t.(products := t'.products, nextId := t.nextId + 1)
  {
    var t' := AfterCreateProduct(t, sid, f);
    var p := NewProductRow(f, sid, t.nextId);
    FindProductAt(t'.products, |t.products|);
  }

  /**
   * The POST handler: 401 unless the caller is a seller; 400 when a required
   * field is falsy; otherwise 201 with the created row.
   */
  method CreateProduct(db: Db, caller: Option<Session>, f: ProductForm)
    returns (status: int, created: Option<Product>)
    requires db.Valid()
    modifies db
    ensures db.Valid()
    ensures !IsSeller(caller) ==> status == 401
    ensures IsSeller(caller) && !CompleteForm(f) ==> status == 400
    ensures IsSeller(caller) && CompleteForm(f) ==> status == 201
    ensures status != 201 ==> created.None? && unchanged(db)
    ensures status == 201 ==>
      && caller.Some?
      && created == Some(NewProductRow(f, caller.value.userId, old(db.nextId)))
      && db.Snapshot() == AfterCreateProduct(old(db.Snapshot()), caller.value.userId, f)
  {
    if !IsSeller(caller) {
      return 401, None;
    }
    if !CompleteForm(f) {
      return 400, None;
    }
    var sid := caller.value.userId;
    CreateProductKeepsConsistent(db.Snapshot(), sid, f);
    var p := NewProductRow(f, sid, db.nextId);
    db.products := db.products + [p];
    db.nextId := db.nextId + 1;
    return 201, Some(p);
  }

  // ---------------------------------------------------------------------------
  // DELETE

  /** `deleteMany({ where: { id, sellerId } })`: the rows that survive. */
  function WithoutOwned(products: seq<Product>, sid: Id, id: Id): (r: seq<Product>)
    ensures forall p :: p in r <==> p in products && !(p.id == id && p.sellerId == sid)
  {
    Filter(products, (p: Product) => !(p.id == id && p.sellerId == sid))
  }

  function AfterDeleteProduct(t: Tables, sid: Id, id: Id): Tables
  {
    t.(products := WithoutOwned(t.products, sid, id))
  }

  /** Removing rows keeps product ids distinct. */
  lemma {:induction false} FilterKeepsDistinctIds(products: seq<Product>, keep: Product -> bool)
    requires DistinctProductIds(products)
    ensures DistinctProductIds(Filter(products, keep))
  {
    if products != [] {
      var rest := products[1..];
      assert DistinctProductIds(rest) by {
        forall i, j | 0 <= i < j < |rest|
          ensures rest[i].id != rest[j].id
        {
          assert rest[i] == products[i + 1] && rest[j] == products[j + 1];
        }
      }
      FilterKeepsDistinctIds(rest, keep);
      var tail := Filter(rest, keep);
      if keep(products[0]) {
        var r := Filter(products, keep);
        assert r == [products[0]] + tail;
        forall j | 0 < j < |r|
          ensures r[0].id != r[j].id
        {
          assert r[j] in tail;
          var m :| 0 <= m < |rest| && rest[m] == r[j];
          assert products[m + 1] == r[j];
        }
      }
    }
  }

  lemma DeleteKeepsConsistent(t: Tables, sid: Id, id: Id)
    requires Consistent(t)
    ensures Consistent(AfterDeleteProduct(t, sid, id))
  {
    var r := WithoutOwned(t.products, sid, id);
    FilterKeepsDistinctIds(t.products, (p: Product) => !(p.id == id && p.sellerId == sid));
    forall k | 0 <= k < |r|
      ensures r[k].id < t.nextId
    {
      assert r[k] in t.products;
    }
  }

  /**
   * DELETE is scoped by owner: no product of `sid` with this id survives,
   * every other product survives, nothing else changes, and when the caller
   * owns no product with this id (another seller's product, or no such id)
   * the tables are left exactly as they were.
   */
  lemma DeleteIsOwnerScoped(t: Tables, sid: Id, id: Id)
    ensures var t' := AfterDeleteProduct(t, sid, id);
      && t' == t.(products := t'.products)
      && (forall p :: p in t'.products ==> p in t.products)
      && (forall p :: p in t'.products ==> !(p.id == id && p.sellerId == sid))
      && (forall p :: p in t.products && (p.id != id || p.sellerId != sid) ==> p in t'.products)
      && ((forall p :: p in t.products ==> !(p.id == id && p.sellerId == sid)) ==> t' == t)
  {
    if forall p :: p in t.products ==> !(p.id == id && p.sellerId == sid) {
      FilterKeepsAll(t.products, (p: Product) => !(p.id == id && p.sellerId == sid));
    }
  }

  /**
   * The DELETE handler: 401 unless the caller is a seller; otherwise the
   * caller's product with this id, if any, is removed and the answer is 204
   * whether or not anything was removed.
   */
  method DeleteProduct(db: Db, caller: Option<Session>, id: Id) returns (status: int)
    requires db.Valid()
    modifies db
    ensures db.Valid()
    ensures !IsSeller(caller) ==> status == 401 && unchanged(db)
    ensures IsSeller(caller) ==>
      status == 204 && db.Snapshot() == AfterDeleteProduct(old(db.Snapshot()), caller.value.userId, id)
  {
    if !IsSeller(caller) {
      return 401;
    }
    DeleteKeepsConsistent(db.Snapshot(), caller.value.userId, id);
    db.products := WithoutOwned(db.products, caller.value.userId, id);
    return 204;
  }
}

=== FILE: store.dfy ===
/**
 * The marketplace's relational store as in-memory state: the rows of the
 * User, Product, CartItem, Address, Order/OrderItem and WalletTransaction
 * tables, the store-wide invariants, and the read-only queries the route
 * handlers share. Money is an integer number of minor currency units.
 */
module Store {

  /** Row identifiers, handed out by the store from `Db.nextId`. */
  type Id = nat

  datatype Option<T> = None | Some(value: T)

  datatype Role = Buyer | Seller | Admin

  /** The authenticated caller as the session reports it. */
  datatype Session = Session(userId: Id, role: Role)

  datatype User = User(id: Id, name: string, email: string, passwordHash: string,
                       role: Role, walletBalance: int)

  datatype Product = Product(id: Id, sellerId: Id, name: string, description: string,
                             price: int, stock: int, category: string,
                             imageUrl: Option<string>, createdAt: nat)

  datatype CartItem = CartItem(id: Id, userId: Id, productId: Id, quantity: int)

  datatype Address = Address(id: Id, userId: Id, street: string, city: string,
                             province: string, postalCode: string, createdAt: nat)

  datatype OrderStatus = Pending | Shipped | Delivered | Cancelled

  /** An order line; `price` is the product's price when the order was placed. */
  datatype OrderItem = OrderItem(productId: Id, quantity: int, price: int)

  datatype Order = Order(id: Id, buyerId: Id, sellerId: Id, addressId: Id,
                         totalAmount: int, status: OrderStatus, items: seq<OrderItem>)

  datatype TransactionType = Purchase | TopUp

  datatype WalletTransaction = WalletTransaction(userId: Id, amount: int, kind: TransactionType)

  /** A cart row together with its product (`include: { product: true }`). */
  datatype Line = Line(item: CartItem, product: Product)

  /** What a listing endpoint answers: a status code and the rows it returns. */
  datatype Listing<T> = Listing(status: int, rows: seq<T>)

  // ---------------------------------------------------------------------------
  // Store invariants

  predicate UsersWellFormed(users: map<Id, User>, nextId: nat)
  {
    forall id :: id in users ==> users[id].id == id && id < nextId && users[id].walletBalance >= 0
  }

  /** No two users share an email (the `email` column is unique). */
  predicate UniqueEmails(users: map<Id, User>)
  {
    forall a, b :: a in users && b in users && a != b ==> users[a].email != users[b].email
  }

  predicate EmailTaken(users: map<Id, User>, email: string)
  {
    exists id :: id in users && users[id].email == email
  }

  /** Sum of the ledger amounts recorded for `uid`. */
  function LedgerSum(ledger: seq<WalletTransaction>, uid: Id): int
  {
    if ledger == [] then 0
    else
      var last := ledger[|ledger| - 1];
      LedgerSum(ledger[..|ledger| - 1], uid) + (if last.userId == uid then last.amount else 0)
  }

  /** Every balance is the sum of its owner's ledger, and every ledger row has an owner. */
  predicate LedgerMatchesBalances(users: map<Id, User>, ledger: seq<WalletTransaction>)
  {
    && (forall id :: id in users ==> users[id].walletBalance == LedgerSum(ledger, id))
    && (forall k :: 0 <= k < |ledger| ==> ledger[k].userId in users)
  }

  predicate DistinctProductIds(products: seq<Product>)
  {
    forall i, j :: 0 <= i < j < |products| ==> products[i].id != products[j].id
  }

  predicate SamePair(x: CartItem, y: CartItem)
  {
    x.userId == y.userId && x.productId == y.productId
  }

  /** At most one cart row per (user, product), and cart row ids are distinct. */
  predicate UniqueCartLines(cart: seq<CartItem>)
  {
    forall i, j :: 0 <= i < j < |cart| ==> !SamePair(cart[i], cart[j]) && cart[i].id != cart[j].id
  }

  /** The users table and the wallet ledger agree, and user ids are below `nextId`. */
  ghost predicate UsersOk(users: map<Id, User>, ledger: seq<WalletTransaction>, nextId: nat)
  {
    UsersWellFormed(users, nextId) && UniqueEmails(users) && LedgerMatchesBalances(users, ledger)
  }

  ghost predicate ProductsOk(products: seq<Product>, nextId: nat)
  {
    DistinctProductIds(products) && forall k :: 0 <= k < |products| ==> products[k].id < nextId
  }

  /** Cart rows are unique per (user, product), hold a positive quantity, and have issued ids. */
  ghost predicate CartOk(cart: seq<CartItem>, nextId: nat)
  {
    UniqueCartLines(cart) && forall k :: 0 <= k < |cart| ==> cart[k].quantity >= 1 && cart[k].id < nextId
  }

  ghost predicate AddressesOk(addresses: seq<Address>, nextId: nat)
  {
    forall k :: 0 <= k < |addresses| ==> addresses[k].id < nextId
  }

  ghost predicate OrdersOk(orders: seq<Order>, nextId: nat)
  {
    forall k :: 0 <= k < |orders| ==> orders[k].id < nextId
  }

  /** The contents of every table, and the id counter. */
  datatype Tables = Tables(users: map<Id, User>, products: seq<Product>, cart: seq<CartItem>,
                           addresses: seq<Address>, orders: seq<Order>,
                           ledger: seq<WalletTransaction>, nextId: nat)

  /** The store invariant, on the tables' contents. */
  ghost predicate Consistent(t: Tables)
  {
    && UsersOk(t.users, t.ledger, t.nextId)
    && ProductsOk(t.products, t.nextId)
    && CartOk(t.cart, t.nextId)
    && AddressesOk(t.addresses, t.nextId)
    && OrdersOk(t.orders, t.nextId)
  }

  // Handing out more ids never breaks a table's invariant.

  lemma UsersOkGrows(users: map<Id, User>, ledger: seq<WalletTransaction>, n: nat, n': nat)
    requires UsersOk(users, ledger, n) && n <= n'
    ensures UsersOk(users, ledger, n')
  {
  }

  lemma ProductsOkGrows(products: seq<Product>, n: nat, n': nat)
    requires ProductsOk(products, n) && n <= n'
    ensures ProductsOk(products, n')
  {
  }

  lemma CartOkGrows(cart: seq<CartItem>, n: nat, n': nat)
    requires CartOk(cart, n) && n <= n'
    ensures CartOk(cart, n')
  {
  }

  lemma AddressesOkGrows(addresses: seq<Address>, n: nat, n': nat)
    requires AddressesOk(addresses, n) && n <= n'
    ensures AddressesOk(addresses, n')
  {
  }

  lemma OrdersOkGrows(orders: seq<Order>, n: nat, n': nat)
    requires OrdersOk(orders, n) && n <= n'
    ensures OrdersOk(orders, n')
  {
  }

  // ---------------------------------------------------------------------------
  // Queries shared by the route handlers

  /** `findUnique({ where: { id } })` over the product table. */
  function FindProduct(products: seq<Product>, pid: Id): (r: Option<Product>)
    ensures r.Some? ==> r.value in products && r.value.id == pid
    ensures r.None? ==> forall p :: p in products ==> p.id != pid
  {
    if products == [] then None
    else if products[0].id == pid then Some(products[0])
    else FindProduct(products[1..], pid)
  }

  lemma {:induction false} FindProductAt(products: seq<Product>, j: nat)
    requires DistinctProductIds(products) && j < |products|
    ensures FindProduct(products, products[j].id) == Some(products[j])
  {
    if j > 0 {
      FindProductAt(products[1..], j - 1);
    }
  }

  /** The cart rows of `uid`, in table order (`where: { userId }`). */
  function UserCart(cart: seq<CartItem>, uid: Id): seq<CartItem>
  {
    if cart == [] then []
    else
      var last := cart[|cart| - 1];
      UserCart(cart[..|cart| - 1], uid) + (if last.userId == uid then [last] else [])
  }

  /** The cart rows of every user but `uid`, in table order. */
  function OtherCarts(cart: seq<CartItem>, uid: Id): seq<CartItem>
  {
    if cart == [] then []
    else
      var last := cart[|cart| - 1];
      OtherCarts(cart[..|cart| - 1], uid) + (if last.userId != uid then [last] else [])
  }

  /** `UserCart` keeps exactly the caller's rows. */
  lemma {:induction false} UserCartMembers(cart: seq<CartItem>, uid: Id)
    ensures forall x :: x in UserCart(cart, uid) <==> x in cart && x.userId == uid
  {
    if cart != [] {
      UserCartMembers(cart[..|cart| - 1], uid);
      assert cart == cart[..|cart| - 1] + [cart[|cart| - 1]];
    }
  }

  /** A cart with no row of `uid` gives `uid` an empty cart. */
  lemma {:induction false} UserCartOfNoRows(cart: seq<CartItem>, uid: Id)
    requires forall k :: 0 <= k < |cart| ==> cart[k].userId != uid
    ensures UserCart(cart, uid) == []
  {
    if cart != [] {
      UserCartOfNoRows(cart[..|cart| - 1], uid);
    }
  }

  /** Clearing one user's rows leaves every other user's cart exactly as it was, in order. */
  lemma {:induction false} OtherCartsKeepsUserCart(cart: seq<CartItem>, uid: Id, u: Id)
    requires u != uid
    ensures UserCart(OtherCarts(cart, uid), u) == UserCart(cart, u)
  {
    if cart != [] {
      var init, last := cart[..|cart| - 1], cart[|cart| - 1];
      var rest := OtherCarts(init, uid);
      OtherCartsKeepsUserCart(init, uid, u);
      if last.userId != uid {
        assert (rest + [last])[..|rest|] == rest;
      } else {
        assert OtherCarts(cart, uid) == rest;
      }
    }
  }

  /** `OtherCarts` keeps exactly the rows of everyone else. */
  lemma {:induction false} OtherCartsMembers(cart: seq<CartItem>, uid: Id)
    ensures forall x :: x in OtherCarts(cart, uid) <==> x in cart && x.userId != uid
  {
    if cart != [] {
      OtherCartsMembers(cart[..|cart| - 1], uid);
      assert cart == cart[..|cart| - 1] + [cart[|cart| - 1]];
    }
  }

  /** Rewriting a row that is not `u`'s with another row that is not `u`'s leaves `u`'s cart as it was. */
  lemma {:induction false} UserCartUpdate(cart: seq<CartItem>, k: nat, x: CartItem, u: Id)
    requires k < |cart| && cart[k].userId != u && x.userId != u
    ensures UserCart(cart[k := x], u) == UserCart(cart, u)
  {
    var n := |cart|;
    if k == n - 1 {
      assert cart[k := x][..n - 1] == cart[..n - 1];
    } else {
      assert cart[k := x][..n - 1] == cart[..n - 1][k := x];
      UserCartUpdate(cart[..n - 1], k, x, u);
    }
  }

  /** Appending a row that is not `u`'s leaves `u`'s cart as it was. */
  lemma UserCartAppend(cart: seq<CartItem>, x: CartItem, u: Id)
    requires x.userId != u
    ensures UserCart(cart + [x], u) == UserCart(cart, u)
  {
    assert (cart + [x])[..|cart|] == cart;
  }

  predicate DistinctProducts(items: seq<CartItem>)
  {
    forall i, j :: 0 <= i < j < |items| ==> items[i].productId != items[j].productId
  }

  /** No product occurs twice among the joined lines. */
  predicate DistinctLineProducts(ls: seq<Line>)
  {
    forall i, j :: 0 <= i < j < |ls| ==> ls[i].item.productId != ls[j].item.productId
  }

  /** Within one user's cart rows no product occurs twice. */
  lemma {:induction false} UserCartDistinctProducts(cart: seq<CartItem>, uid: Id)
    requires UniqueCartLines(cart)
    ensures DistinctProducts(UserCart(cart, uid))
  {
    if cart != [] {
      var init, last := cart[..|cart| - 1], cart[|cart| - 1];
      assert UniqueCartLines(init);
      UserCartDistinctProducts(init, uid);
      UserCartMembers(init, uid);
      var prev := UserCart(init, uid);
      var mine := UserCart(cart, uid);
      assert mine == prev + (if last.userId == uid then [last] else []);
      assert DistinctProducts(prev);
      forall i, j | 0 <= i < j < |mine|
        ensures mine[i].productId != mine[j].productId
      {
        assert mine[i] == prev[i];
        if j == |prev| {
          assert mine[j] == last;
          assert prev[i] in init;
          var k :| 0 <= k < |init| && init[k] == prev[i];
          assert cart[k] == init[k];
          assert !SamePair(cart[k], cart[|cart| - 1]);
          assert prev[i].userId == uid;
        } else {
          assert mine[j] == prev[j];
          assert prev[i].productId != prev[j].productId;
        }
      }
    }
  }

  /** Pairs every cart row with its product; None when some row's product row is gone. */
  function Join(items: seq<CartItem>, products: seq<Product>): (r: Option<seq<Line>>)
    ensures r.Some? <==> forall k :: 0 <= k < |items| ==> FindProduct(products, items[k].productId).Some?
    ensures r.Some? ==> |r.value| == |items|
    ensures r.Some? ==> forall k :: 0 <= k < |items| ==>
      r.value[k] == Line(items[k], FindProduct(products, items[k].productId).value)
  {
    if items == [] then Some([])
    else
      match FindProduct(products, items[0].productId)
      case None => None
      case Some(p) =>
        match Join(items[1..], products)
        case None => None
        case Some(rest) => Some([Line(items[0], p)] + rest)
  }

  /** The users table with `uid`'s wallet moved by `delta`. */
  function Credit(users: map<Id, User>, uid: Id, delta: int): map<Id, User>
    requires uid in users
  {
    users[uid := users[uid].(walletBalance := users[uid].walletBalance + delta)]
  }

  /** `Credit` moves exactly `uid`'s balance, by exactly `delta`, and keeps every user row. */
  lemma CreditMoves(users: map<Id, User>, uid: Id, delta: int)
    requires uid in users
    ensures var r := Credit(users, uid, delta);
      && r.Keys == users.Keys
      && r[uid] == users[uid].(walletBalance := users[uid].walletBalance + delta)
      && forall id :: id in users && id != uid ==> r[id] == users[id]
  {
  }

  /** Adding `e` to the ledger changes only its owner's sum, by `e.amount`. */
  lemma LedgerSumAppend(ledger: seq<WalletTransaction>, e: WalletTransaction, uid: Id)
    ensures LedgerSum(ledger + [e], uid) == LedgerSum(ledger, uid) + (if e.userId == uid then e.amount else 0)
  {
    assert (ledger + [e])[..|ledger|] == ledger;
  }

  /** A user with no ledger rows has ledger sum zero. */
  lemma {:induction false} LedgerSumAbsent(ledger: seq<WalletTransaction>, uid: Id)
    requires forall k :: 0 <= k < |ledger| ==> ledger[k].userId != uid
    ensures LedgerSum(ledger, uid) == 0
  {
    if ledger != [] {
      LedgerSumAbsent(ledger[..|ledger| - 1], uid);
    }
  }

  /**
   * Moving a balance by `delta` together with appending a ledger row of
   * `delta` for the same user keeps every balance equal to its ledger sum.
   */
  lemma {:induction false} PairedUpdateKeepsLedger(users: map<Id, User>, ledger: seq<WalletTransaction>,
                                                   uid: Id, delta: int, kind: TransactionType)
    requires LedgerMatchesBalances(users, ledger) && uid in users
    ensures LedgerMatchesBalances(Credit(users, uid, delta), ledger + [WalletTransaction(uid, delta, kind)])
  {
    var e := WalletTransaction(uid, delta, kind);
    forall id | id in users
      ensures LedgerSum(ledger + [e], id) == LedgerSum(ledger, id) + (if id == uid then delta else 0)
    {
      LedgerSumAppend(ledger, e, id);
    }
  }

  /**
   * A wallet movement recorded in the ledger keeps the users table
   * consistent, also when more ids have been handed out meanwhile.
   */
  lemma CreditKeepsUsersOk(users: map<Id, User>, ledger: seq<WalletTransaction>, n: nat, n': nat,
                           uid: Id, delta: int, kind: TransactionType)
    requires UsersOk(users, ledger, n) && n <= n' && uid in users && users[uid].walletBalance + delta >= 0
    ensures UsersOk(Credit(users, uid, delta), ledger + [WalletTransaction(uid, delta, kind)], n')
  {
    PairedUpdateKeepsLedger(users, ledger, uid, delta, kind);
  }

  /** Dropping one user's rows keeps the cart free of duplicate rows. */
  lemma {:induction false} OtherCartsOk(cart: seq<CartItem>, uid: Id, nextId: nat)
    requires CartOk(cart, nextId)
    ensures CartOk(OtherCarts(cart, uid), nextId)
  {
    if cart != [] {
      var init, last := cart[..|cart| - 1], cart[|cart| - 1];
      assert CartOk(init, nextId);
      OtherCartsOk(init, uid, nextId);
      OtherCartsMembers(init, uid);
      var prev := OtherCarts(init, uid);
      if last.userId != uid {
        forall i | 0 <= i < |prev|
          ensures !SamePair(prev[i], last) && prev[i].id != last.id
        {
          assert prev[i] in init;
          var k :| 0 <= k < |init| && init[k] == prev[i];
          assert cart[k] == prev[i];
        }
        CartOkSnoc(prev, last, nextId);
      }
    }
  }

  /** A row that clashes with no row of a consistent cart can be appended to it. */
  lemma CartOkSnoc(cart: seq<CartItem>, x: CartItem, nextId: nat)
    requires CartOk(cart, nextId) && x.quantity >= 1 && x.id < nextId
    requires forall i :: 0 <= i < |cart| ==> !SamePair(cart[i], x) && cart[i].id != x.id
    ensures CartOk(cart + [x], nextId)
  {
  }

  /**
   * The store. Every route handler reads and writes these tables; `nextId`
   * hands out fresh row ids and doubles as the creation clock (`createdAt`).
   */
  class Db {
    var users: map<Id, User>
    var products: seq<Product>
    var cart: seq<CartItem>
    var addresses: seq<Address>
    var orders: seq<Order>
    var ledger: seq<WalletTransaction>
    var nextId: nat

    /** The tables as one value. */
    function Snapshot(): Tables
      reads this
    {
      Tables(users, products, cart, addresses, orders, ledger, nextId)
    }

    ghost predicate Valid()
      reads this
    {
      Consistent(Snapshot())
    }

    /** An empty store. */
    constructor ()
      ensures Valid()
      ensures users == map[] && products == [] && cart == [] && addresses == []
      ensures orders == [] && ledger == [] && nextId == 0
    {
      users, products, cart, addresses := map[], [], [], [];
      orders, ledger, nextId := [], [], 0;
    }
  }
}

=== FILE: wallet.dfy ===
/**
 * POST /api/wallet/topup: credit the caller's wallet and log the credit,
 * both in one database transaction.
 */
module Wallet {
  import opened Store

  /** The largest amount one top-up may add (10,000,000 IDR). */
  const MaxTopUp := 10_000_000

  /** The tables after a top-up of `amount`: a TOPUP entry is logged and the balance rises by `amount`. */
  function AfterTopUp(t: Tables, uid: Id, amount: int): Tables
    requires uid in t.users
  {
    t.(ledger := t.ledger + [WalletTransaction(uid, amount, TopUp)],
       users := Credit(t.users, uid, amount))
  }

  /** A positive top-up keeps the store invariant. */
  lemma TopUpKeepsConsistent(t: Tables, uid: Id, amount: int)
    requires Consistent(t) && uid in t.users && amount > 0
    ensures Consistent(AfterTopUp(t, uid, amount))
  {
    CreditKeepsUsersOk(t.users, t.ledger, t.nextId, t.nextId, uid, amount, TopUp);
  }

  /**
   * A top-up changes exactly one balance, by exactly `amount`, and logs
   * exactly one TOPUP entry of `amount` for it; every other user and every
   * other table is untouched, and each balance still equals its ledger sum.
   */
  lemma TopUpCredits(t: Tables, uid: Id, amount: int)
    requires uid in t.users
    ensures var t' := AfterTopUp(t, uid, amount);
      && t'.users.Keys == t.users.Keys
      && t'.users[uid].walletBalance == t.users[uid].walletBalance + amount
      && (forall id :: id in t.users && id != uid ==> t'.users[id] == t.users[id])
      && t'.ledger == t.ledger + [WalletTransaction(uid, amount, TopUp)]
      && t' == t.(users := t'.users, ledger := t'.ledger)
      && (LedgerMatchesBalances(t.users, t.ledger) ==> LedgerMatchesBalances(t'.users, t'.ledger))
  {
    if LedgerMatchesBalances(t.users, t.ledger) {
      PairedUpdateKeepsLedger(t.users, t.ledger, uid, amount, TopUp);
    }
  }

  /**
   * The route handler. `amount` is the body's amount after `Number(...)`;
   * None stands for NaN. 401 without a session; 400 for NaN or an amount
   * that is not positive; 400 above `MaxTopUp`; 500 when the caller's user
   * row is gone (the update inside the transaction fails and nothing is
   * kept); otherwise 200 with the new balance.
   */
  method TopUpWallet(db: Db, caller: Option<Session>, amount: Option<int>)
    returns (status: int, newBalance: Option<int>)
    requires db.Valid()
    modifies db
    ensures db.Valid()
    ensures caller.None? ==> status == 401
    ensures caller.Some? && (amount.None? || amount.value <= 0) ==> status == 400
    ensures caller.Some? && amount.Some? && amount.value > MaxTopUp ==> status == 400
    ensures caller.Some? && amount.Some? && 0 < amount.value <= MaxTopUp ==>
      status == (if caller.value.userId in old(db.users) then 200 else 500)
    ensures status != 200 ==> newBalance.None? && unchanged(db)
    ensures status == 200 ==>
      && caller.Some? && amount.Some? && caller.value.userId in old(db.users)
      && db.Snapshot() == AfterTopUp(old(db.Snapshot()), caller.value.userId, amount.value)
      && newBalance == Some(old(db.users)[caller.value.userId].walletBalance + amount.value)
  {
    if caller.None? {
      return 401, None;
    }
    if amount.None? || amount.value <= 0 {
      return 400, None;
    }
    if amount.value > MaxTopUp {
      return 400, None;
    }
    var uid := caller.value.userId;
    if uid !in db.users {
      return 500, None;
    }
    TopUpKeepsConsistent(db.Snapshot(), uid, amount.value);
    db.ledger := db.ledger + [WalletTransaction(uid, amount.value, TopUp)];
    db.users := Credit(db.users, uid, amount.value);
    newBalance := Some(db.users[uid].walletBalance);
    status := 200;
  }
}
